=== FILE: README.md ===
# Convex polyhedron clipping, in Dafny

This project models the clipping kernel of a small 3D geometry program.
A **face** is a convex polygon, stored as an ordered list of vertices. It
also stands for the closed half-space behind the plane through its first
three vertices: a point is *inside* the face when the face's determinant
at that point is not positive. A **polyhedron** is an ordered list of
faces.

`clipFace` cuts one face by another face's half-space. It walks the
edges of the face and collects:

- the end of each edge that ends inside;
- the crossing point of each edge that enters or leaves the half-space,
  added before the end when the edge enters.

If two or fewer vertices are collected, the result is "no face".

`clip(Polyhedron, Face)` clips every face of a solid by the cutting face
(the *body pass*). It then threads the cutting face through `clipFace`
against every face of the solid (the *cap pass*) and appends the
surviving cap. `clip(Polyhedron)` folds that over the faces of a second
solid.

Three creators build solids from corner points: a box, a tetrahedron and
the older cube creator.

The modules follow the program:

| module | models |
|---|---|
| `Vectors` | the vector arithmetic used (add, subtract, scale, midpoint, interpolation) |
| `Options` | "no face" as `None` instead of null |
| `Faces` | the current face class: de-duplicating `addVertex`, edges, determinant, `rewind`, `getIntersectionPoint`, `clipFace` |
| `Polyhedra` | the current polyhedron class: `addFace`, body pass, cap pass, `clip` by a face and by a solid |
| `LegacyFaces` | the older face class: hash-based `addVertex`, and `clipFace` with an if/else-if emit table |
| `LegacyPolyhedra` | the older polyhedron class |
| `Box`, `Tetrahedron`, `CubeCreator` | the three creators |

Coordinates are exact reals. Every operation is a pure function over
immutable values.

Where the source throws, the model puts a precondition instead:

- A plane query reads vertices 0, 1 and 2, so `WellFormed` (at least
  three vertices) is required wherever the source would index them.
- The creators require what keeps every face they rewind at three or
  more vertices. `Box.DegenerateFaceCollapses` and
  `Tetrahedron.CoincidentPointsCollapse` show these conditions are exact:
  when they fail, some face has at most two vertices and the source would
  fail.

The main results:

- `Polyhedra.ClipInsideOther`: every vertex of `clip(p, other)` lies
  inside every face of `other`, when `other` is convexly wound.
- `Box.CreateConvexlyWound` and `Tetrahedron.CreateConvexlyWound`: the
  creators produce convexly wound solids.
- `Faces.ClipFaceStaysInside`: clipping never leaves a half-space that
  held the input face.
- `Faces.ClipFaceAllInside` and `Faces.ClipFaceAllOutside`: the trivial
  clips.
- The legacy `clipFace` and `clip` compute exactly what the current ones
  compute (without hash collisions among the collected points).
- Without hash collisions among the corners, the older cube creator
  builds exactly the box the box creator builds.

Some behaviour of the code that a reader might not expect:

- **Cutting by an own face adds a face.** One cut of a convexly wound
  solid by one of its own faces keeps every face, rotated by one, and then
  appends a cap with the cutting face's vertices, rotated once for every
  face of the solid (`Polyhedra.SelfCutAddsFace`). For the box, one such
  cut gives seven faces (`Box.CutByOwnFace`). The model proves this for a
  single cut only, not for the whole fold `clip(p, p)`.
- **No empty result.** `clip` never reports an empty intersection: it
  returns whatever faces remain. An empty solid cut by a face becomes that
  face alone (`Polyhedra.ClipBySingleFaceShape`).
- **Midpoint branch unreachable from `clipFace`.** `getIntersectionPoint`
  returns the midpoint when the two determinants are equal. `clipFace`
  only adds an intersection point for an edge whose ends lie on different
  sides, and there the determinants differ (`Faces.IntersectionOnSegment`).
- **Vertex order.** `clipFace` returns its vertices starting at the end
  of edge 0, so a face that is wholly inside comes back rotated by one
  (`Faces.ClipFaceAllInside`).

## Model

| member | source | states |
|---|---|---|
| Faces.AddVertex | src/main/java/representation/Face.java:30-35 | a vertex already present leaves the face unchanged; a new one is appended last; the vertex set grows by exactly that vertex; no repeats are introduced |
| Faces.AddVertices | src/main/java/representation/Face.java:30-35 | adding several vertices in turn keeps the earlier vertices as a prefix, adds at most one vertex per point, holds exactly the old and the added points, and introduces no repeats |
| Faces.Build | src/main/java/creators/Tetrahedron.java:52-55 | a fresh face filled by `addVertex` holds each given point exactly once; given distinct points it holds them in the given order |
| Faces.EndOfEdge | src/main/java/representation/Face.java:46-51 | edge i ends at vertex i + 1, and the last edge wraps round to vertex 0 |
| Faces.EdgesClosePolygon | src/main/java/representation/Face.java:37-51 | an n-vertex face has n edges; their ends are the vertices rotated by one, and each edge starts where the previous edge (cyclically) ends |
| Faces.TripleProductDet | src/main/java/representation/Face.java:53-70 | the expanded triple product (b − p)·((c − p)×(p − a)) equals the plane offset n·(p − a), where n = (b − a)×(c − a) |
| Faces.DefiningVerticesOnPlane | src/main/java/representation/Face.java:53-76 | the three vertices that define the plane have determinant zero and count as inside |
| Faces.AxisAlignedDet | src/main/java/representation/Face.java:53-70 | for a face in the plane "coordinate a = k", the determinant depends only on the point's distance from k along a |
| Faces.DetLerp | src/main/java/representation/Face.java:53-70 | along the line p1 → p2 the determinant is affine in the line parameter |
| Faces.BetweenInsideIsInside | src/main/java/representation/Face.java:72-76 | the inside of a face is convex: every point between two inside points is inside |
| Faces.Rewind | src/main/java/representation/Face.java:78-87 | if the point is inside, the face is unchanged; otherwise its vertex list is reversed; either way it holds the same vertices |
| Faces.RewindPutsInside | src/main/java/representation/Face.java:78-87 | if reversal flips the point's side, the point is inside after rewinding, and rewinding again changes nothing |
| Faces.TriangleReversalNegates | src/main/java/representation/Face.java:78-87 | reversing a triangle negates its determinant at every point |
| Faces.ParallelogramReversalNegates | src/main/java/representation/Face.java:78-87 | a parallelogram is flat (its fourth vertex is on the plane), and reversing it negates its determinant at every point |
| Faces.IntersectionPoint | src/main/java/representation/Face.java:89-105 | with equal determinants the result is the midpoint; otherwise it is a point p1 + t·(p2 − p1) on the line through p1 and p2 that lies on the plane, which fixes it uniquely |
| Faces.IntersectionOnSegment | src/main/java/representation/Face.java:89-105 | for an edge whose ends lie on different sides, the midpoint fallback is not taken and the result is the crossing point, between the two ends |
| Faces.ExtendFace | src/main/java/representation/Face.java:145-174 | an edge entering the half-space adds its crossing and then its end; an edge staying inside adds its end; an edge leaving adds its crossing; an edge outside adds nothing; nothing collected is ever removed, and an inside end is always collected |
| Faces.Collected | src/main/java/representation/Face.java:107-139 | after k edges the working face has no repeated vertex and at most 2k vertices; each vertex is inside the clipping face and is either a vertex of the input or on the clipping plane |
| Faces.SanityCheck | src/main/java/representation/Face.java:176-180 | a face exists exactly when more than two vertices were collected, and it is the collected face |
| Faces.ClipFace | src/main/java/representation/Face.java:107-117 | a clipped face has at least three and at most 2n vertices, none repeated, all inside the clipping face, each one an input vertex or on the clipping plane; conversely every input vertex inside the clipping face is kept |
| Faces.RotateByClosedForm | src/main/java/representation/Face.java:107-117 | rotating a vertex list k ≤ n times, as k successive clips of a face wholly inside do, moves its first k vertices to the back |
| Faces.RotateByFullTurn | src/main/java/representation/Face.java:107-117 | rotating an n-vertex list n times gives it back, so the rotations repeat with period n |
| Faces.CollectedKeepsInsideEnds | src/main/java/representation/Face.java:145-174 | after k edges, the end of every edge handled so far is collected when it is inside the clipping face |
| Faces.CollectedHoldsInsideVertices | src/main/java/representation/Face.java:107-117 | every vertex of the input inside the clipping face is collected, as the end of the edge before it |
| Faces.CollectedAllInside | src/main/java/representation/Face.java:107-117 | for a face with distinct vertices wholly inside, the first k edges collect vertices 1 to k |
| Faces.ClipFaceAllInside | src/main/java/representation/Face.java:107-117 | a face with distinct vertices wholly inside the clipping face comes back with the same vertices, rotated by one |
| Faces.CollectedAllOutside | src/main/java/representation/Face.java:107-117 | for a face wholly outside, nothing is collected |
| Faces.ClipFaceAllOutside | src/main/java/representation/Face.java:107-117 | a face wholly outside the clipping face gives no face |
| Faces.CollectedStaysInside | src/main/java/representation/Face.java:107-139 | every collected point lies in any half-space that held the whole input face |
| Faces.ClipFaceStaysInside | src/main/java/representation/Face.java:107-117 | a clipped face lies in every half-space that held the input face, so it stays within the input's convex hull |
| Faces.ReclipRotates | src/main/java/representation/Face.java:107-117 | clipping a clipped face again by the same face only rotates its vertices |
| Polyhedra.AddFace | src/main/java/representation/Polyhedron.java:20-23 | one face more, the new face last, every earlier face unchanged |
| Polyhedra.BodyPass | src/main/java/representation/Polyhedron.java:43-51 | the body pass yields no more faces than it is given, each well formed and lying inside the cutting face |
| Polyhedra.CapPass | src/main/java/representation/Polyhedron.java:52-59 | a cap survives only if it started as a face; with no faces to meet it is the cutting face itself; a surviving clipped cap is well formed |
| Polyhedra.ClipBySingleFace | src/main/java/representation/Polyhedron.java:41-64 | a single-face clip yields a valid solid with at most one face more than its input |
| Polyhedra.ClipAll | src/main/java/representation/Polyhedron.java:30-39 | clipping by k faces in turn yields a valid solid with at most k faces more than its input |
| Polyhedra.Clip | src/main/java/representation/Polyhedron.java:30-39 | the result is valid, has at most as many faces as the two inputs together, and is the input itself when the clipping solid has no faces |
| Polyhedra.BodyPassAppend | src/main/java/representation/Polyhedron.java:43-51 | the body pass over a + b is the body pass over a followed by the body pass over b, so survivors keep their input order |
| Polyhedra.BodyPassSingle | src/main/java/representation/Polyhedron.java:48-50 | one face contributes its clip when it has one, and nothing otherwise |
| Polyhedra.BodyPassAllSurvive | src/main/java/representation/Polyhedron.java:43-51 | when every face survives, face i of the output is the clip of face i |
| Polyhedra.BodyPassStaysInside | src/main/java/representation/Polyhedron.java:43-51 | every half-space that held all input faces holds all body faces |
| Polyhedra.CapPassAppend | src/main/java/representation/Polyhedron.java:52-59 | threading the cap through a + b is threading it through a, then through b |
| Polyhedra.CapPassStopsAtNull | src/main/java/representation/Polyhedron.java:53-56 | once the cap is gone it stays gone: the pass stops at the first null |
| Polyhedra.CapPassStaysInside | src/main/java/representation/Polyhedron.java:52-59 | every half-space that held the cutting face holds the cap |
| Polyhedra.CapPassInsideAll | src/main/java/representation/Polyhedron.java:52-59 | the surviving cap lies inside every face it was clipped against |
| Polyhedra.CapPassAllInside | src/main/java/representation/Polyhedron.java:52-59 | a cap with distinct vertices that lies inside every face it meets survives, and each face it meets rotates its vertex list by one: after k faces it is the cap rotated k times |
| Polyhedra.ClipBySingleFaceShape | src/main/java/representation/Polyhedron.java:41-64 | the output is the body faces in order, then the cap exactly when it survived; cutting an empty solid yields the cutting face alone |
| Polyhedra.ClipBySingleFaceKeepsInside | src/main/java/representation/Polyhedron.java:41-64 | a half-space that held both the solid and the cutting face holds the result |
| Polyhedra.ClipBySingleFaceInsideCut | src/main/java/representation/Polyhedron.java:41-64 | when the cutting face holds its own vertices (as every planar face does), the result lies inside it |
| Polyhedra.ClipAllAppend | src/main/java/representation/Polyhedron.java:30-39 | clipping by a + b is clipping by a, then by b |
| Polyhedra.ClipIsLeftFold | src/main/java/representation/Polyhedron.java:30-39 | adding a last face to the clipping solid adds one last single-face clip |
| Polyhedra.ClipAllContained | src/main/java/representation/Polyhedron.java:30-39 | when the cutting faces hold one another and the faces that held the start also hold them, the result of the fold lies inside every cutting face and every face that held the start |
| Polyhedra.ClipInsideOther | src/main/java/representation/Polyhedron.java:30-39 | every vertex of the intersection lies inside every face of a convexly wound clipping solid |
| Polyhedra.ConvexlyWoundByIndex | src/main/java/representation/Face.java:72-76 | a solid is convexly wound exactly when every vertex of face j lies inside face i, for all i and j |
| Polyhedra.SelfCutBody | src/main/java/representation/Polyhedron.java:43-51 | cutting a convexly wound solid whose faces have distinct vertices by one of its own faces keeps every face, rotated by one |
| Polyhedra.SelfCutCap | src/main/java/representation/Polyhedron.java:52-62 | the cap of such a cut survives and is the cutting face's vertex list rotated once per face of the solid |
| Polyhedra.SelfCutAddsFace | src/main/java/representation/Polyhedron.java:41-64 | such a cut returns every face rotated by one, followed by the cutting face's vertex list rotated once per face: one face more than the input |
| LegacyFaces.AddHashedVertex | src/main/java/main/Face.java:24-31 | a vertex whose hash is already recorded is skipped and the face is unchanged; otherwise it is appended last and its hash recorded; the recorded hashes stay the hashes of the vertices |
| LegacyFaces.HashDedupAgrees | src/main/java/main/Face.java:24-31 | without a hash collision, hash de-duplication adds exactly what value de-duplication adds |
| LegacyFaces.HashCollisionDropsVertex | src/main/java/main/Face.java:24-31 | a new vertex whose hash collides with a present vertex is silently dropped, where value de-duplication keeps it |
| LegacyFaces.AddHashedVertices | src/main/java/main/Face.java:24-31 | adding several vertices keeps the hash record in step and only holds old or added points |
| LegacyFaces.AddHashedVerticesAgrees | src/main/java/main/Face.java:24-31 | without collisions among all points involved, adding several vertices by hash gives the same list as adding them by value |
| LegacyFaces.HashedBuild | src/main/java/main/Face.java:24-31 | a fresh face filled by the hashed `addVertex` holds only given points |
| LegacyFaces.HashedBuildAgrees | src/main/java/main/Face.java:24-31 | without collisions among the points, the hashed build equals the value build |
| LegacyFaces.ExtendFace | src/main/java/main/Face.java:106-121 | the if/else-if emit table adds exactly what the four independent tests of the current class add |
| LegacyFaces.Collected | src/main/java/main/Face.java:102-121 | the legacy working face after k edges is the current class's working face |
| LegacyFaces.ClipFace | src/main/java/main/Face.java:102-127 | the legacy `clipFace` returns exactly what the current one returns |
| LegacyFaces.ClipFaceOutcomes | src/main/java/main/Face.java:122-126 | no face exactly when at most two vertices were collected; a face wholly inside comes back rotated by one; a face wholly outside gives no face |
| LegacyPolyhedra.BodyPass | src/main/java/main/Polyhedron.java:43-51 | the legacy body pass equals the current one |
| LegacyPolyhedra.CapPass | src/main/java/main/Polyhedron.java:52-59 | the legacy cap pass equals the current one |
| LegacyPolyhedra.ClipBySingleFace | src/main/java/main/Polyhedron.java:41-64 | the legacy single-face clip equals the current one: a valid solid with at most one face more |
| LegacyPolyhedra.ClipAll | src/main/java/main/Polyhedron.java:30-39 | the legacy fold equals the current one |
| LegacyPolyhedra.Clip | src/main/java/main/Polyhedron.java:30-39 | the legacy `clip` equals the current one, and is the input itself when the clipping solid has no faces |
| Box.InitCorners | src/main/java/creators/Box.java:30-43 | every corner takes each coordinate from one of the two given corners; `hhh` and `lll` are the given corners; the center is the midpoint of each pair of opposite corners; the corners are distinct when the box is not flat |
| Box.FillFace | src/main/java/creators/Box.java:65-72 | a filled face has at least three vertices, exactly the four given points |
| Box.FillFaceWinding | src/main/java/creators/Box.java:65-72 | four distinct points are kept in order or reversed; for a parallelogram the center ends up inside |
| Box.FaceCornersShape | src/main/java/creators/Box.java:55-63 | each face's four corners are distinct, form a parallelogram and share one coordinate |
| Box.DegenerateFaceCollapses | src/main/java/creators/Box.java:55-72 | when the given corners share a coordinate, some face is left with at most two vertices |
| Box.BoxFace | src/main/java/creators/Box.java:55-72 | every face of the box is well formed |
| Box.Create | src/main/java/creators/Box.java:74-83 | the box is a valid solid with six faces |
| Box.BoxFaceShape | src/main/java/creators/Box.java:55-72 | each face has four distinct corners of the box, all sharing the face's fixed coordinate, and the center is inside it |
| Box.BoxFaceHoldsCorners | src/main/java/creators/Box.java:55-72 | every corner of the box is inside every face |
| Box.BoxFaceHoldsFace | src/main/java/creators/Box.java:55-72 | every vertex of face j is inside face i |
| Box.CreateConvexlyWound | src/main/java/creators/Box.java:22-28 | the box is wound with its interior behind every face |
| Box.CreateHoldsCenter | src/main/java/creators/Box.java:22-28 | the center is inside every face of the box |
| Box.CutByOwnFace | src/main/java/representation/Polyhedron.java:41-64 | cutting a box by one of its own faces yields seven faces |
| Tetrahedron.Center | src/main/java/creators/Tetrahedron.java:39-39 | four times the center is the sum of the four points |
| Tetrahedron.CreateTriangle | src/main/java/creators/Tetrahedron.java:50-58 | a triangle over three distinct points keeps them in order or reversed, and has the center inside |
| Tetrahedron.CoincidentPointsCollapse | src/main/java/creators/Tetrahedron.java:42-58 | when two of the four points coincide, some triangle is left with at most two vertices |
| Tetrahedron.TetraFace | src/main/java/creators/Tetrahedron.java:42-58 | face i is triangle i, in order or reversed, holds only the four points, and has the center inside |
| Tetrahedron.Create | src/main/java/creators/Tetrahedron.java:60-68 | the tetrahedron is a valid solid with four faces |
| Tetrahedron.CreateShape | src/main/java/creators/Tetrahedron.java:42-58 | face i of the solid is triangle i in order or reversed, with the center inside |
| Tetrahedron.DetAtCenter | src/main/java/creators/Tetrahedron.java:39-39 | the determinant at the center is the average of the determinants at the four points |
| Tetrahedron.TetraFaceHoldsPoints | src/main/java/creators/Tetrahedron.java:42-58 | all four points are inside every face |
| Tetrahedron.TetraFaceHoldsFace | src/main/java/creators/Tetrahedron.java:42-58 | every vertex of face j is inside face i |
| Tetrahedron.CreateConvexlyWound | src/main/java/creators/Tetrahedron.java:26-31 | the tetrahedron is wound with its interior behind every face |
| CubeCreator.FillFace | src/main/java/main/CubeCreator.java:61-68 | a face filled through the hash check is well formed and holds only the given points |
| CubeCreator.FillFaceAgrees | src/main/java/main/CubeCreator.java:61-68 | without hash collisions among its four points, the hashed fill is the box creator's fill |
| CubeCreator.CubeFace | src/main/java/main/CubeCreator.java:51-68 | every cube face is well formed and holds only corners of the cube |
| CubeCreator.CreateCube | src/main/java/main/CubeCreator.java:70-79 | the cube is a valid solid with six faces |
| CubeCreator.CreateCubeCorners | src/main/java/main/CubeCreator.java:26-38 | whatever the hash, every vertex of the cube is one of its eight corners |
| CubeCreator.CubeFaceAgrees | src/main/java/main/CubeCreator.java:51-68 | without hash collisions among the corners, cube face i is box face i |
| CubeCreator.CreateCubeAgrees | src/main/java/main/CubeCreator.java:18-24 | without hash collisions among the corners, the cube creator builds exactly the box the box creator builds |

## Left out

- Floating point. Coordinates are exact reals, so rounding is not
  modelled. Neither is the `Float.compare` test in `getIntersectionPoint`,
  which treats −0.0 and 0.0 as different and NaN as equal to itself.
- Faces.AddVertex: models `Array.contains(v, false)` as value equality of
  coordinates. `Vector3.equals` compares float bit patterns, so −0.0 and
  0.0 count as different there.
- LegacyFaces.ClipFace: the legacy working face de-duplicates by value,
  not by hash code. A hash collision among collected points, which the
  legacy `addVertex` would drop, is not modelled. The hashed `addVertex`
  is modelled on its own (`LegacyFaces.AddHashedVertex`), and the older
  cube creator uses it.
- Degenerate faces. A plane query or `rewind` on a face with fewer than
  three vertices throws in the source. The model makes three vertices a
  precondition instead of modelling the exception. The log message the
  source writes first is not modelled.
- Logging and `toString` (representation/Polyhedron.java:66-76) are left
  out: they compute nothing the kernel uses.
- Shared mutable state is not modelled:
  - the creators' static fields;
  - the per-edge scratch fields of the current face (start, end,
    intersection, side flags);
  - the aliasing of caller-owned `Vector3` objects stored as vertices.
- `getNumberOfSegments` in main/Face.java is left out: it is private and
  never called.
- The example drivers that call the kernel are left out.
- Rendering, input and the application shell (libGDX) are outside the
  kernel.

=== FILE: box.dfy ===
/** The box creator (creators/Box.java) as a pure function: eight corners
    taken from two opposite corner points, six quadrilateral faces, each
    rewound against the box's center. */
module Box {
  import opened Vectors
  import opened Faces
  import opened Polyhedra

  /** The corners differ in every coordinate. Otherwise some face keeps
      fewer than three distinct vertices and rewinding it indexes past the
      end of its vertex list. */
  predicate NonDegenerate(c1: Vec3, c2: Vec3) {
    c1.x != c2.x && c1.y != c2.y && c1.z != c2.z
  }

  /** The eight corners, named by where their x, y and z come from
      (h: corner2, l: corner1), and the center. */
  datatype Corners = Corners(
    hhh: Vec3, hhl: Vec3, hlh: Vec3, hll: Vec3,
    lhh: Vec3, lhl: Vec3, llh: Vec3, lll: Vec3,
    center: Vec3)

  function AllCorners(k: Corners): seq<Vec3> {
    [k.hhh, k.hhl, k.hlh, k.hll, k.lhh, k.lhl, k.llh, k.lll]
  }

  /** Every coordinate of v is the corresponding coordinate of c1 or of c2. */
  predicate IsCornerOf(v: Vec3, c1: Vec3, c2: Vec3) {
    && (v.x == c1.x || v.x == c2.x)
    && (v.y == c1.y || v.y == c2.y)
    && (v.z == c1.z || v.z == c2.z)
  }

  /** `initCorners`: the corners, and the center as the componentwise average
      of the two given corners. The center is the midpoint of each pair of
      opposite corners; the corners are distinct when the box is not flat. */
  function InitCorners(c1: Vec3, c2: Vec3): (k: Corners)
    ensures forall v :: v in AllCorners(k) ==> IsCornerOf(v, c1, c2)
    ensures k.hhh == c2 && k.lll == c1
    ensures Midpoint(k.hhh, k.lll) == k.center && Midpoint(k.hhl, k.llh) == k.center
    ensures Midpoint(k.hlh, k.lhl) == k.center && Midpoint(k.hll, k.lhh) == k.center
    ensures NonDegenerate(c1, c2) ==> Distinct(AllCorners(k))
  {
    Corners(
      Vec3(c2.x, c2.y, c2.z), Vec3(c2.x, c2.y, c1.z), Vec3(c2.x, c1.y, c2.z), Vec3(c2.x, c1.y, c1.z),
      Vec3(c1.x, c2.y, c2.z), Vec3(c1.x, c2.y, c1.z), Vec3(c1.x, c1.y, c2.z), Vec3(c1.x, c1.y, c1.z),
      Vec3(0.5 * (c1.x + c2.x), 0.5 * (c1.y + c2.y), 0.5 * (c1.z + c2.z)))
  }

  /** `fillFace`: add the four vertices in order, then rewind against the center. */
  function FillFace(v1: Vec3, v2: Vec3, v3: Vec3, v4: Vec3, center: Vec3): (r: Face)
    requires WellFormed(Build([v1, v2, v3, v4]))
    ensures WellFormed(r)
    ensures forall u :: u in r.vertices <==> u in [v1, v2, v3, v4]
  {
    Rewind(Build([v1, v2, v3, v4]), center)
  }

  /** Four distinct vertices are kept in order or reversed, and when they form
      a parallelogram the center ends up inside. */
  lemma FillFaceWinding(v1: Vec3, v2: Vec3, v3: Vec3, v4: Vec3, center: Vec3)
    requires Distinct([v1, v2, v3, v4])
    ensures WellFormed(Build([v1, v2, v3, v4]))
    ensures var r := FillFace(v1, v2, v3, v4, center);
            r.vertices == [v1, v2, v3, v4] || r.vertices == [v4, v3, v2, v1]
    ensures Add(v1, v3) == Add(v2, v4) ==> PointIsInside(FillFace(v1, v2, v3, v4, center), center)
  {
    var f := Build([v1, v2, v3, v4]);
    assert Reverse(f.vertices) == [v4, v3, v2, v1];
    if Add(v1, v3) == Add(v2, v4) {
      ParallelogramReversalNegates(f, center);
      RewindPutsInside(f, center);
    }
  }

  /** The four vertices of each face, in the order `fillFaces` adds them,
      listed as top, bottom, north, south, east, west. */
  function FaceCorners(k: Corners): seq<seq<Vec3>> {
    [ [k.hhh, k.hhl, k.lhl, k.lhh],
      [k.hlh, k.hll, k.lll, k.llh],
      [k.hll, k.hhl, k.hhh, k.hlh],
      [k.lll, k.lhl, k.lhh, k.llh],
      [k.hhh, k.hlh, k.llh, k.lhh],
      [k.hhl, k.hll, k.lll, k.lhl] ]
  }

  /** Each face's corners are distinct parallelograms sharing one coordinate. */
  lemma FaceCornersShape(c1: Vec3, c2: Vec3, i: nat)
    requires NonDegenerate(c1, c2) && i < 6
    ensures var q := FaceCorners(InitCorners(c1, c2))[i];
            && |q| == 4 && Distinct(q)
            && Add(q[0], q[2]) == Add(q[1], q[3])
            && forall v :: v in q ==> Coord(v, FixedAxis(i)) == FixedValue(c1, c2, i)
  {
    var q := FaceCorners(InitCorners(c1, c2))[i];
    assert forall v :: v in q <==> v == q[0] || v == q[1] || v == q[2] || v == q[3];
  }

  /** The corner condition is exact: when the corners share a coordinate,
      some face is left with at most two vertices, and rewinding it would
      index past the end of its vertex list. */
  lemma DegenerateFaceCollapses(c1: Vec3, c2: Vec3)
    requires !NonDegenerate(c1, c2)
    ensures exists i :: 0 <= i < 6 && |Build(FaceCorners(InitCorners(c1, c2))[i]).vertices| <= 2
  {
    var k := InitCorners(c1, c2);
    var fc := FaceCorners(k);
    if c1.x == c2.x || c1.z == c2.z {
      if c1.x == c2.x {
        BuildFromTwoPoints(fc[0], k.hhh, k.hhl);
      } else {
        BuildFromTwoPoints(fc[0], k.hhh, k.lhl);
      }
      assert |Build(fc[0]).vertices| <= 2;
    } else {
      BuildFromTwoPoints(fc[2], k.hll, k.hhh);
      assert |Build(fc[2]).vertices| <= 2;
    }
  }

  /** The axis each face is perpendicular to: top/bottom y, north/south x, east/west z. */
  function FixedAxis(i: nat): Axis {
    if i < 2 then Y else if i < 4 then X else Z
  }

  /** The coordinate each face sits at: top, north and east at corner2, the others at corner1. */
  function FixedValue(c1: Vec3, c2: Vec3, i: nat): real {
    Coord(if i % 2 == 0 then c2 else c1, FixedAxis(i))
  }

  /** Face i of the box: its corner quadruple passed to `fillFace`. */
  function BoxFace(c1: Vec3, c2: Vec3, i: nat): (f: Face)
    requires NonDegenerate(c1, c2) && i < 6
    ensures WellFormed(f)
  {
    var k := InitCorners(c1, c2);
    var q := FaceCorners(k)[i];
    FaceCornersShape(c1, c2, i);
    FillFace(q[0], q[1], q[2], q[3], k.center)
  }

  /** `create`: the faces top, bottom, north, south, east, west, in that order. */
  function Create(c1: Vec3, c2: Vec3): (r: Polyhedron)
    requires NonDegenerate(c1, c2)
    ensures Valid(r) && NumberOfFaces(r) == 6
  {
    Polyhedron(seq(6, i requires 0 <= i < 6 => BoxFace(c1, c2, i)))
  }

  /** Each face has four distinct vertices sharing the face's fixed
      coordinate, and the center is inside every face. */
  lemma BoxFaceShape(c1: Vec3, c2: Vec3, i: nat)
    requires NonDegenerate(c1, c2) && i < 6
    ensures var f := BoxFace(c1, c2, i);
            && |f.vertices| == 4 && Distinct(f.vertices)
            && (forall v :: v in f.vertices ==> Coord(v, FixedAxis(i)) == FixedValue(c1, c2, i))
            && (forall v :: v in f.vertices ==> IsCornerOf(v, c1, c2))
            && PointIsInside(f, InitCorners(c1, c2).center)
  {
    var k := InitCorners(c1, c2);
    var q := FaceCorners(k)[i];
    FaceCornersShape(c1, c2, i);
    FillFaceWinding(q[0], q[1], q[2], q[3], k.center);
    assert forall v :: v in q ==> v in AllCorners(k);
  }

  /** A face in the plane "coordinate a = k" that holds a point midway to the
      parallel plane "coordinate a = k2" holds every point of both planes. */
  lemma AxisFaceHoldsSlab(f: Face, a: Axis, k: real, k2: real, center: Vec3, v: Vec3)
    requires WellFormed(f)
    requires Coord(f.vertices[0], a) == k && Coord(f.vertices[1], a) == k && Coord(f.vertices[2], a) == k
    requires Coord(center, a) == (k + k2) / 2.0 && PointIsInside(f, center)
    requires Coord(v, a) == k || Coord(v, a) == k2
    ensures PointIsInside(f, v)
  {
    AxisAlignedDet(f, a, k, v);
    AxisAlignedDet(f, a, k, center);
    var n := Coord(Normal(f), a);
    assert Det(f, center) == n * ((k + k2) / 2.0 - k);
    assert n * (k2 - k) == 2.0 * (n * ((k + k2) / 2.0 - k));
  }

  /** Every corner of the box is inside face i. */
  lemma BoxFaceHoldsCorners(c1: Vec3, c2: Vec3, i: nat, v: Vec3)
    requires NonDegenerate(c1, c2) && i < 6 && IsCornerOf(v, c1, c2)
    ensures PointIsInside(BoxFace(c1, c2, i), v)
  {
    var f := BoxFace(c1, c2, i);
    var center := InitCorners(c1, c2).center;
    var a := FixedAxis(i);
    var k := FixedValue(c1, c2, i);
    var k2 := Coord(if i % 2 == 0 then c1 else c2, a);
    BoxFaceShape(c1, c2, i);
    assert f.vertices[0] in f.vertices && f.vertices[1] in f.vertices && f.vertices[2] in f.vertices;
    assert Coord(center, a) == (k + k2) / 2.0;
    assert Coord(v, a) == k || Coord(v, a) == k2;
    AxisFaceHoldsSlab(f, a, k, k2, center, v);
  }

  /** Every vertex of face j lies inside face i. */
  lemma BoxFaceHoldsFace(c1: Vec3, c2: Vec3, i: nat, j: nat, v: Vec3)
    requires NonDegenerate(c1, c2) && i < 6 && j < 6
    requires v in BoxFace(c1, c2, j).vertices
    ensures PointIsInside(BoxFace(c1, c2, i), v)
  {
    BoxFaceShape(c1, c2, j);
    BoxFaceHoldsCorners(c1, c2, i, v);
  }

  /** The box is wound with its interior behind every face: every vertex of
      every face lies inside every face. */
  lemma CreateConvexlyWound(c1: Vec3, c2: Vec3)
    requires NonDegenerate(c1, c2)
    ensures ConvexlyWound(Create(c1, c2))
  {
    var r := Create(c1, c2);
    var fs := r.faces;
    forall i, j, v | 0 <= i < |fs| && 0 <= j < |fs| && v in fs[j].vertices
      ensures PointIsInside(fs[i], v)
    {
      BoxFaceHoldsFace(c1, c2, i, j, v);
    }
    ConvexlyWoundByIndex(r);
  }

  /** The center of the box is inside every face. */
  lemma CreateHoldsCenter(c1: Vec3, c2: Vec3)
    requires NonDegenerate(c1, c2)
    ensures forall h :: h in Create(c1, c2).faces ==> PointIsInside(h, InitCorners(c1, c2).center)
  {
    var fs := Create(c1, c2).faces;
    forall h | h in fs
      ensures PointIsInside(h, InitCorners(c1, c2).center)
    {
      var i :| 0 <= i < 6 && fs[i] == h;
      BoxFaceShape(c1, c2, i);
    }
  }

  /** Cutting the box by one of its own faces yields seven faces: the six
      faces, each rotated by one, and a cap holding the cutting face's
      vertices, rotated once per face. */
  lemma CutByOwnFace(c1: Vec3, c2: Vec3, i: nat)
    requires NonDegenerate(c1, c2) && i < 6
    ensures NumberOfFaces(ClipBySingleFace(Create(c1, c2), Create(c1, c2).faces[i])) == 7
  {
    var r := Create(c1, c2);
    CreateConvexlyWound(c1, c2);
    forall f | f in r.faces
      ensures Distinct(f.vertices)
    {
      var j :| 0 <= j < 6 && r.faces[j] == f;
      BoxFaceShape(c1, c2, j);
    }
    SelfCutAddsFace(r, r.faces[i]);
  }
}

=== FILE: cube_creator.dfy ===
/** The older cube creator (main/CubeCreator.java): the same corners, faces
    and face order as the box creator, but built on the older face class,
    whose `addVertex` drops a vertex whose hash code it has already seen. */
module CubeCreator {
  import opened Vectors
  import opened Faces
  import opened Polyhedra
  import opened LegacyFaces
  import Box

  /** `fillFace`: add the four vertices through the hash check, then rewind
      against the center. Rewinding reads three vertices, so the hash check
      must have kept at least three. */
  function FillFace(v1: Vec3, v2: Vec3, v3: Vec3, v4: Vec3, center: Vec3, hash: Vec3 -> int): (r: Face)
    requires WellFormed(HashedBuild([v1, v2, v3, v4], hash))
    ensures WellFormed(r)
    ensures forall u :: u in r.vertices ==> u in [v1, v2, v3, v4]
  {
    Rewind(HashedBuild([v1, v2, v3, v4], hash), center)
  }

  /** With no hash collision among the four vertices, the hashed fill is
      the value-deduplicating fill of the box creator. */
  lemma FillFaceAgrees(v1: Vec3, v2: Vec3, v3: Vec3, v4: Vec3, center: Vec3, hash: Vec3 -> int)
    requires InjectiveOn(hash, [v1, v2, v3, v4])
    requires WellFormed(HashedBuild([v1, v2, v3, v4], hash))
    ensures WellFormed(Build([v1, v2, v3, v4]))
    ensures FillFace(v1, v2, v3, v4, center, hash) == Box.FillFace(v1, v2, v3, v4, center)
  {
    HashedBuildAgrees([v1, v2, v3, v4], hash);
  }

  /** Every one of the six hashed face builds keeps at least three vertices:
      exactly what `rewind` needs not to fail. */
  predicate FacesBuild(c1: Vec3, c2: Vec3, hash: Vec3 -> int) {
    forall i :: 0 <= i < 6 ==> WellFormed(HashedBuild(Box.FaceCorners(Box.InitCorners(c1, c2))[i], hash))
  }

  /** Face i of the cube (top, bottom, north, south, east, west). */
  function CubeFace(c1: Vec3, c2: Vec3, hash: Vec3 -> int, i: nat): (f: Face)
    requires FacesBuild(c1, c2, hash) && i < 6
    ensures WellFormed(f)
    ensures forall u :: u in f.vertices ==> Box.IsCornerOf(u, c1, c2)
  {
    var k := Box.InitCorners(c1, c2);
    var q := Box.FaceCorners(k)[i];
    assert q == [q[0], q[1], q[2], q[3]];
    assert forall u :: u in q ==> u in Box.AllCorners(k);
    FillFace(q[0], q[1], q[2], q[3], k.center, hash)
  }

  /** `createCube`: six faces in the order top, bottom, north, south, east, west. */
  function CreateCube(c1: Vec3, c2: Vec3, hash: Vec3 -> int): (r: Polyhedron)
    requires FacesBuild(c1, c2, hash)
    ensures Valid(r) && NumberOfFaces(r) == 6
  {
    Polyhedron(seq(6, i requires 0 <= i < 6 => CubeFace(c1, c2, hash, i)))
  }

  /** Whatever the hash code, every vertex of the cube is one of the eight
      corners: a collision can only drop vertices, never invent one. */
  lemma CreateCubeCorners(c1: Vec3, c2: Vec3, hash: Vec3 -> int)
    requires FacesBuild(c1, c2, hash)
    ensures forall f, u :: f in CreateCube(c1, c2, hash).faces && u in f.vertices ==> Box.IsCornerOf(u, c1, c2)
  {
    var fs := CreateCube(c1, c2, hash).faces;
    forall f, u | f in fs && u in f.vertices
      ensures Box.IsCornerOf(u, c1, c2)
    {
      var i :| 0 <= i < 6 && fs[i] == f;
      assert f == CubeFace(c1, c2, hash, i);
    }
  }

  /** Without hash collisions among the eight corners, face i of the cube is
      face i of the box. */
  lemma CubeFaceAgrees(c1: Vec3, c2: Vec3, hash: Vec3 -> int, i: nat)
    requires Box.NonDegenerate(c1, c2) && i < 6
    requires InjectiveOn(hash, Box.AllCorners(Box.InitCorners(c1, c2)))
    requires FacesBuild(c1, c2, hash)
    ensures CubeFace(c1, c2, hash, i) == Box.BoxFace(c1, c2, i)
  {
    var k := Box.InitCorners(c1, c2);
    var q := Box.FaceCorners(k)[i];
    assert q == [q[0], q[1], q[2], q[3]];
    assert forall u :: u in q ==> u in Box.AllCorners(k);
    FillFaceAgrees(q[0], q[1], q[2], q[3], k.center, hash);
  }

  /** Without hash collisions among the eight corners, the cube creator
      builds exactly the box the box creator builds. */
  lemma CreateCubeAgrees(c1: Vec3, c2: Vec3, hash: Vec3 -> int)
    requires Box.NonDegenerate(c1, c2)
    requires InjectiveOn(hash, Box.AllCorners(Box.InitCorners(c1, c2)))
    requires FacesBuild(c1, c2, hash)
    ensures CreateCube(c1, c2, hash) == Box.Create(c1, c2)
  {
    var r := CreateCube(c1, c2, hash);
    var b := Box.Create(c1, c2);
    forall i | 0 <= i < 6
      ensures r.faces[i] == b.faces[i]
    {
      CubeFaceAgrees(c1, c2, hash, i);
    }
    assert r.faces == b.faces;
  }
}

=== FILE: faces.dfy ===
/** The current Face of the kernel (representation/Face.java): a convex
    polygon held as its vertex sequence, which also acts as the closed
    half-space behind the plane of its first three vertices. */
module Faces {
  import opened Vectors
  import opened Options

  datatype Face = Face(vertices: seq<Vec3>)

  /** Plane queries index vertices 0, 1 and 2, so they need three vertices. */
  predicate WellFormed(f: Face) {
    |f.vertices| >= 3
  }

  predicate Distinct(s: seq<Vec3>) {
    forall i, j :: 0 <= i < j < |s| ==> s[i] != s[j]
  }

  // ---------------------------------------------------------------------
  // Building a face

  /** `addVertex`: value-equality de-duplication. */
  function AddVertex(f: Face, v: Vec3): (r: Face)
    ensures v in f.vertices ==> r == f
    ensures v !in f.vertices ==> r.vertices == f.vertices + [v]
    ensures v in r.vertices
    ensures forall u :: u in r.vertices <==> u in f.vertices || u == v
    ensures Distinct(f.vertices) ==> Distinct(r.vertices)
  {
    if v in f.vertices then f else Face(f.vertices + [v])
  }

  /** Adds the vertices one after another, left to right. */
  function AddVertices(f: Face, vs: seq<Vec3>): (r: Face)
    ensures f.vertices <= r.vertices
    ensures |r.vertices| <= |f.vertices| + |vs|
    ensures forall u :: u in r.vertices <==> u in f.vertices || u in vs
    ensures Distinct(f.vertices) ==> Distinct(r.vertices)
    decreases |vs|
  {
    if vs == [] then f else AddVertices(AddVertex(f, vs[0]), vs[1..])
  }

  /** A face built from scratch holds each given point once; given distinct
      points, it holds them in the given order. */
  function Build(vs: seq<Vec3>): (r: Face)
    ensures Distinct(r.vertices)
    ensures |r.vertices| <= |vs|
    ensures forall u :: u in r.vertices <==> u in vs
    ensures Distinct(vs) ==> r.vertices == vs
  {
    if Distinct(vs) then
      BuildDistinct(vs);
      AddVertices(Face([]), vs)
    else
      AddVertices(Face([]), vs)
  }

  lemma {:induction false} BuildDistinct(vs: seq<Vec3>)
    requires Distinct(vs)
    ensures AddVertices(Face([]), vs).vertices == vs
  {
    BuildPrefix(vs, 0);
    assert vs[..0] == [] && vs[0..] == vs;
  }

  lemma {:induction false} BuildPrefix(vs: seq<Vec3>, k: nat)
    requires Distinct(vs) && k <= |vs|
    ensures AddVertices(Face(vs[..k]), vs[k..]) == Face(vs)
    decreases |vs| - k
  {
    if k < |vs| {
      var rest := vs[k..];
      assert rest != [] && rest[0] == vs[k] && rest[1..] == vs[k+1..];
      assert vs[k] !in vs[..k];
      assert AddVertex(Face(vs[..k]), vs[k]) == Face(vs[..k+1]) by {
        assert vs[..k] + [vs[k]] == vs[..k+1];
      }
      calc {
        AddVertices(Face(vs[..k]), rest);
        AddVertices(AddVertex(Face(vs[..k]), rest[0]), rest[1..]);
        AddVertices(Face(vs[..k+1]), vs[k+1..]);
        { BuildPrefix(vs, k + 1); }
        Face(vs);
      }
    } else {
      assert vs[..k] == vs && vs[k..] == [];
    }
  }

  /** A face built from points taking at most two values has at most two
      vertices: too few for a plane. */
  lemma BuildFromTwoPoints(vs: seq<Vec3>, a: Vec3, b: Vec3)
    requires forall u :: u in vs ==> u == a || u == b
    ensures |Build(vs).vertices| <= 2
  {
    var r := Build(vs).vertices;
    DistinctCard(r);
    var elems := set u | u in r;
    assert elems <= {a, b};
    if a in elems && b in elems {
      assert elems == {a, b};
    } else if a in elems {
      assert elems == {a};
    } else if b in elems {
      assert elems == {b};
    } else {
      assert elems == {};
    }
  }

  /** A sequence without repeats has as many elements as its set. */
  lemma {:induction false} DistinctCard(r: seq<Vec3>)
    requires Distinct(r)
    ensures |set u | u in r| == |r|
    decreases |r|
  {
    if r != [] {
      var init, x := r[..|r| - 1], r[|r| - 1];
      assert Distinct(init);
      DistinctCard(init);
      assert x !in init;
      assert (set u | u in r) == (set u | u in init) + {x};
    }
  }

  // ---------------------------------------------------------------------
  // Edges

  /** Edge i starts at vertex i. */
  function StartOfEdge(f: Face, i: nat): Vec3
    requires i < |f.vertices|
  {
    f.vertices[i]
  }

  /** Edge i ends at vertex i + 1, and the last edge wraps back to vertex 0. */
  function EndOfEdge(f: Face, i: nat): (r: Vec3)
    requires i < |f.vertices|
    ensures i + 1 < |f.vertices| ==> r == f.vertices[i + 1]
    ensures i + 1 == |f.vertices| ==> r == f.vertices[0]
  {
    f.vertices[(i + 1) % |f.vertices|]
  }

  /** An n-vertex face has n edges. */
  function NumberOfEdges(f: Face): nat {
    |f.vertices|
  }

  /** The vertex sequence rotated to start at vertex 1. */
  function RotateByOne(s: seq<Vec3>): (r: seq<Vec3>)
    requires |s| > 0
    ensures |r| == |s|
    ensures r[|r| - 1] == s[0]
    ensures forall i :: 0 <= i < |s| - 1 ==> r[i] == s[i + 1]
    ensures forall u :: u in r <==> u in s
    ensures Distinct(s) ==> Distinct(r)
  {
    s[1..] + [s[0]]
  }

  /** The vertex sequence rotated by one, k times over. */
  function RotateBy(s: seq<Vec3>, k: nat): (r: seq<Vec3>)
    requires |s| > 0
    ensures |r| == |s|
    ensures forall u :: u in r <==> u in s
    ensures Distinct(s) ==> Distinct(r)
    decreases k
  {
    if k == 0 then s else RotateBy(RotateByOne(s), k - 1)
  }

  /** Rotating a times and then b times is rotating a + b times. */
  lemma {:induction false} RotateByCompose(s: seq<Vec3>, a: nat, b: nat)
    requires |s| > 0
    ensures RotateBy(s, a + b) == RotateBy(RotateBy(s, a), b)
    decreases a
  {
    if a > 0 {
      RotateByCompose(RotateByOne(s), a - 1, b);
      assert RotateBy(s, a + b) == RotateBy(RotateByOne(s), a - 1 + b);
    }
  }

  /** Rotating k <= n times moves the first k vertices to the back. */
  lemma {:induction false} RotateByClosedForm(s: seq<Vec3>, k: nat)
    requires |s| > 0 && k <= |s|
    ensures RotateBy(s, k) == s[k..] + s[..k]
    decreases k
  {
    if k == 0 {
      assert s[0..] + s[..0] == s;
    } else {
      RotateByClosedForm(s, k - 1);
      RotateByCompose(s, k - 1, 1);
      var t := s[k - 1..] + s[..k - 1];
      assert RotateBy(s, k) == RotateBy(t, 1) == RotateByOne(t);
      assert t[0] == s[k - 1] && t[1..] == s[k..] + s[..k - 1];
      assert s[..k - 1] + [s[k - 1]] == s[..k];
      assert RotateByOne(t) == s[k..] + s[..k - 1] + [s[k - 1]];
    }
  }

  /** A full turn gives the sequence back, so rotations repeat with period n. */
  lemma RotateByFullTurn(s: seq<Vec3>, k: nat)
    requires |s| > 0
    ensures RotateBy(s, |s|) == s
    ensures RotateBy(s, k + |s|) == RotateBy(s, k)
  {
    RotateByClosedForm(s, |s|);
    assert s[|s|..] + s[..|s|] == s;
    RotateByCompose(s, |s|, k);
  }

  /** Walking the edges in order visits their ends as the vertex sequence
      rotated by one: the edges close the polygon, and every vertex ends
      exactly one edge. */
  lemma EdgesClosePolygon(f: Face)
    requires |f.vertices| > 0
    ensures NumberOfEdges(f) == |f.vertices|
    ensures forall i :: 0 <= i < NumberOfEdges(f) ==>
              EndOfEdge(f, i) == RotateByOne(f.vertices)[i]
    ensures forall i :: 0 <= i < NumberOfEdges(f) ==>
              StartOfEdge(f, i) == EndOfEdge(f, if i == 0 then NumberOfEdges(f) - 1 else i - 1)
  {
    var n := |f.vertices|;
    var rot := RotateByOne(f.vertices);
    forall i | 0 <= i < n
      ensures EndOfEdge(f, i) == rot[i]
    {
      if i + 1 < n {
        assert EndOfEdge(f, i) == f.vertices[i + 1];
      } else {
        assert EndOfEdge(f, i) == f.vertices[0];
      }
    }
  }

  // ---------------------------------------------------------------------
  // Plane side

  /** Normal of the plane through the first three vertices. */
  function Normal(f: Face): Vec3
    requires WellFormed(f)
  {
    Cross(Sub(f.vertices[1], f.vertices[0]), Sub(f.vertices[2], f.vertices[0]))
  }

  /** Signed offset of p from the plane of the face, scaled by the length of
      the normal: negative behind the face, zero on it, positive in front. */
  function Det(f: Face, p: Vec3): real
    requires WellFormed(f)
  {
    Dot(Normal(f), Sub(p, f.vertices[0]))
  }

  /** `getPointVsFaceDeterminant`: the triple product of (b - p, c - p, p - a),
      written out component by component. It is the plane offset above. */
  function TripleProductDet(f: Face, p: Vec3): (r: real)
    requires WellFormed(f)
    ensures r == Det(f, p)
  {
    var a := f.vertices[0];
    var b := f.vertices[1];
    var c := f.vertices[2];
    var bd := Sub(b, p);
    var cd := Sub(c, p);
    var pd := Sub(p, a);
    bd.x * (cd.y * pd.z - cd.z * pd.y)
    - bd.y * (cd.x * pd.z - cd.z * pd.x)
    + bd.z * (cd.x * pd.y - cd.y * pd.x)
  }

  /** `pointIsInsideFace`: the closed half-space, so a point on the plane is inside. */
  predicate PointIsInside(f: Face, p: Vec3)
    requires WellFormed(f)
  {
    Det(f, p) <= 0.0
  }

  /** The three vertices that define the plane lie on it, hence inside. */
  lemma DefiningVerticesOnPlane(f: Face)
    requires WellFormed(f)
    ensures Det(f, f.vertices[0]) == 0.0 && PointIsInside(f, f.vertices[0])
    ensures Det(f, f.vertices[1]) == 0.0 && PointIsInside(f, f.vertices[1])
    ensures Det(f, f.vertices[2]) == 0.0 && PointIsInside(f, f.vertices[2])
  {
  }

  /** A face whose defining vertices share one coordinate k lies in an
      axis-aligned plane: its determinant depends on that coordinate only. */
  lemma AxisAlignedDet(f: Face, a: Axis, k: real, p: Vec3)
    requires WellFormed(f)
    requires Coord(f.vertices[0], a) == k && Coord(f.vertices[1], a) == k && Coord(f.vertices[2], a) == k
    ensures Det(f, p) == Coord(Normal(f), a) * (Coord(p, a) - k)
  {
    var n := Normal(f);
    match a
    case X => assert n.y == 0.0 && n.z == 0.0;
    case Y => assert n.x == 0.0 && n.z == 0.0;
    case Z => assert n.x == 0.0 && n.y == 0.0;
  }

  /** The determinant along a line is affine in the line parameter. */
  lemma DetLerp(f: Face, p1: Vec3, p2: Vec3, t: real)
    requires WellFormed(f)
    ensures Det(f, Lerp(p1, p2, t)) == Det(f, p1) + t * (Det(f, p2) - Det(f, p1))
  {
    DotLerp(Normal(f), f.vertices[0], p1, p2, t);
  }

  /** A closed half-space is convex: a point between two inside points is inside. */
  lemma BetweenInsideIsInside(h: Face, p1: Vec3, p2: Vec3, t: real)
    requires WellFormed(h) && PointIsInside(h, p1) && PointIsInside(h, p2)
    requires 0.0 <= t <= 1.0
    ensures PointIsInside(h, Lerp(p1, p2, t))
  {
    DetLerp(h, p1, p2, t);
    var d1, d2 := Det(h, p1), Det(h, p2);
    assert d1 + t * (d2 - d1) == (1.0 - t) * d1 + t * d2;
    assert (1.0 - t) * d1 <= 0.0;
    assert t * d2 <= 0.0;
  }

  // ---------------------------------------------------------------------
  // Winding

  function Reverse(s: seq<Vec3>): (r: seq<Vec3>)
    ensures |r| == |s|
    ensures forall i :: 0 <= i < |s| ==> r[i] == s[|s| - 1 - i]
    ensures forall u :: u in r <==> u in s
  {
    if s == [] then [] else Reverse(s[1..]) + [s[0]]
  }

  /** `rewind`: reverse the winding exactly when the point is outside. */
  function Rewind(f: Face, p: Vec3): (r: Face)
    requires WellFormed(f)
    ensures WellFormed(r)
    ensures PointIsInside(f, p) ==> r == f
    ensures !PointIsInside(f, p) ==> r.vertices == Reverse(f.vertices)
    ensures forall u :: u in r.vertices <==> u in f.vertices
  {
    if PointIsInside(f, p) then f else Face(Reverse(f.vertices))
  }

  /** Reversing the face flips the side of p. */
  predicate ReversalNegates(f: Face, p: Vec3)
    requires WellFormed(f)
  {
    Det(Face(Reverse(f.vertices)), p) == -Det(f, p)
  }

  /** When reversal flips the side of p, rewinding leaves p inside, and a
      second rewind changes nothing. */
  lemma RewindPutsInside(f: Face, p: Vec3)
    requires WellFormed(f) && ReversalNegates(f, p)
    ensures PointIsInside(Rewind(f, p), p)
    ensures Rewind(Rewind(f, p), p) == Rewind(f, p)
  {
  }

  /** For a triangle, reversal negates the determinant at every point. */
  lemma TriangleReversalNegates(f: Face, p: Vec3)
    requires |f.vertices| == 3
    ensures ReversalNegates(f, p)
  {
    var a, b, c := f.vertices[0], f.vertices[1], f.vertices[2];
    assert Reverse(f.vertices) == [c, b, a];
  }

  /** A parallelogram (v0 + v2 == v1 + v3) is flat, and reversing it negates
      the determinant at every point. */
  lemma ParallelogramReversalNegates(f: Face, p: Vec3)
    requires |f.vertices| == 4
    requires Add(f.vertices[0], f.vertices[2]) == Add(f.vertices[1], f.vertices[3])
    ensures Det(f, f.vertices[3]) == 0.0
    ensures ReversalNegates(f, p)
  {
    var v0, v1, v2, v3 := f.vertices[0], f.vertices[1], f.vertices[2], f.vertices[3];
    assert Reverse(f.vertices) == [v3, v2, v1, v0];
    var g := Face([v3, v2, v1, v0]);
    assert Normal(g) == Scale(Normal(f), -1.0);
    assert Det(f, v3) == 0.0;
  }

  // ---------------------------------------------------------------------
  // Edge / plane intersection

  /** `getIntersectionPoint`: linear interpolation by the two determinants,
      with the midpoint when they compare equal. */
  function IntersectionPoint(c: Face, p1: Vec3, p2: Vec3): (r: Vec3)
    requires WellFormed(c)
    ensures Det(c, p1) == Det(c, p2) ==> r == Midpoint(p1, p2)
    ensures Det(c, p1) != Det(c, p2) ==> Det(c, r) == 0.0
    ensures Det(c, p1) != Det(c, p2) ==> exists t :: r == Lerp(p1, p2, t)
  {
    var d1 := Det(c, p1);
    var d2 := Det(c, p2);
    if d1 == d2 then
      Midpoint(p1, p2)
    else
      var t := -d1 / (d2 - d1);
      DetLerp(c, p1, p2, t);
      Lerp(p1, p2, t)
  }

  /** When p1 and p2 lie on different sides, the midpoint fallback is not
      taken: the intersection point is on the plane, between p1 and p2. */
  lemma IntersectionOnSegment(c: Face, p1: Vec3, p2: Vec3)
    requires WellFormed(c) && PointIsInside(c, p1) != PointIsInside(c, p2)
    ensures Det(c, p1) != Det(c, p2) && Det(c, IntersectionPoint(c, p1, p2)) == 0.0
    ensures exists t :: 0.0 <= t <= 1.0 && IntersectionPoint(c, p1, p2) == Lerp(p1, p2, t)
  {
    var d1, d2 := Det(c, p1), Det(c, p2);
    var t := -d1 / (d2 - d1);
    assert t * (d2 - d1) == -d1;
    if d1 <= 0.0 {
      assert 0.0 < d2 - d1;
      assert 0.0 <= t <= 1.0;
    } else {
      assert d2 - d1 < 0.0;
      assert 0.0 <= t <= 1.0;
    }
    assert IntersectionPoint(c, p1, p2) == Lerp(p1, p2, t);
  }

  // ---------------------------------------------------------------------
  // Clipping one face against another face's half-space

  /** `setIntersectionWith` + `extendFace` for one edge (s, e): the four
      independent tests of the source, threaded through the working face. */
  function ExtendFace(w: Face, c: Face, s: Vec3, e: Vec3): (r: Face)
    requires WellFormed(c)
    ensures !PointIsInside(c, s) && PointIsInside(c, e) ==>
              r == AddVertex(AddVertex(w, IntersectionPoint(c, s, e)), e)
    ensures PointIsInside(c, s) && PointIsInside(c, e) ==> r == AddVertex(w, e)
    ensures PointIsInside(c, s) && !PointIsInside(c, e) ==>
              r == AddVertex(w, IntersectionPoint(c, s, e))
    ensures !PointIsInside(c, s) && !PointIsInside(c, e) ==> r == w
    ensures forall u :: u in w.vertices ==> u in r.vertices
    ensures PointIsInside(c, e) ==> e in r.vertices
  {
    var x := IntersectionPoint(c, s, e);
    var si := PointIsInside(c, s);
    var ei := PointIsInside(c, e);
    var w1 := if !si && ei then AddVertex(AddVertex(w, x), e) else w;
    var w2 := if si && ei then AddVertex(w1, e) else w1;
    var w3 := if si && !ei then AddVertex(w2, x) else w2;
    w3
  }

  /** The working face of `clipFace` after its loop has handled edges 0 .. k-1.
      Every collected point is inside the clipping face, and is either a
      vertex of f or a point on the clipping plane. */
  function Collected(f: Face, c: Face, k: nat): (w: Face)
    requires WellFormed(c) && k <= |f.vertices|
    ensures Distinct(w.vertices)
    ensures |w.vertices| <= 2 * k
    ensures forall v :: v in w.vertices ==> PointIsInside(c, v)
    ensures forall v :: v in w.vertices ==> v in f.vertices || Det(c, v) == 0.0
    decreases k
  {
    if k == 0 then Face([])
    else ExtendFace(Collected(f, c, k - 1), c, StartOfEdge(f, k - 1), EndOfEdge(f, k - 1))
  }

  /** `sanityCheckFace`: fewer than three collected vertices is "no face". */
  function SanityCheck(w: Face): (r: Option<Face>)
    ensures r.Some? <==> |w.vertices| > 2
    ensures r.Some? ==> r.value == w
  {
    if |w.vertices| > 2 then Some(w) else None
  }

  /** `clipFace`: the part of f inside the clipping face c, or no face. */
  function ClipFace(f: Face, c: Face): (r: Option<Face>)
    requires WellFormed(c)
    ensures r.Some? ==> WellFormed(r.value) && |r.value.vertices| <= 2 * |f.vertices|
    ensures r.Some? ==> Distinct(r.value.vertices)
    ensures r.Some? ==> forall v :: v in r.value.vertices ==> PointIsInside(c, v)
    ensures r.Some? ==> forall v :: v in r.value.vertices ==> v in f.vertices || Det(c, v) == 0.0
    ensures r.Some? ==> forall v :: v in f.vertices && PointIsInside(c, v) ==> v in r.value.vertices
  {
    CollectedHoldsInsideVertices(f, c);
    SanityCheck(Collected(f, c, |f.vertices|))
  }

  /** Once collected, a point stays collected, and the end of every edge
      handled so far is collected when it is inside. */
  lemma {:induction false} CollectedKeepsInsideEnds(f: Face, c: Face, k: nat)
    requires WellFormed(c) && k <= |f.vertices|
    ensures forall j :: 0 <= j < k && PointIsInside(c, EndOfEdge(f, j)) ==>
              EndOfEdge(f, j) in Collected(f, c, k).vertices
  {
    if k > 0 {
      CollectedKeepsInsideEnds(f, c, k - 1);
      var w := Collected(f, c, k - 1);
      assert Collected(f, c, k) == ExtendFace(w, c, StartOfEdge(f, k - 1), EndOfEdge(f, k - 1));
    }
  }

  /** Every vertex of f that is inside the clipping face is collected: it is
      the end of the edge before it. */
  lemma CollectedHoldsInsideVertices(f: Face, c: Face)
    requires WellFormed(c)
    ensures forall v :: v in f.vertices && PointIsInside(c, v) ==> v in Collected(f, c, |f.vertices|).vertices
  {
    var n := |f.vertices|;
    CollectedKeepsInsideEnds(f, c, n);
    forall v | v in f.vertices && PointIsInside(c, v)
      ensures v in Collected(f, c, n).vertices
    {
      var i :| 0 <= i < n && f.vertices[i] == v;
      var j := if i == 0 then n - 1 else i - 1;
      assert EndOfEdge(f, j) == v;
    }
  }

  lemma {:induction false} CollectedAllInside(f: Face, c: Face, k: nat)
    requires WellFormed(c) && k < |f.vertices| && Distinct(f.vertices)
    requires forall v :: v in f.vertices ==> PointIsInside(c, v)
    ensures Collected(f, c, k) == Face(f.vertices[1..k + 1])
  {
    if k > 0 {
      CollectedAllInside(f, c, k - 1);
      var e := EndOfEdge(f, k - 1);
      assert e == f.vertices[k];
      assert PointIsInside(c, StartOfEdge(f, k - 1)) && PointIsInside(c, e);
      assert e !in f.vertices[1..k];
      assert f.vertices[1..k] + [e] == f.vertices[1..k + 1];
    }
  }

  /** A face wholly inside the clipping face comes back as the same
      vertices, rotated to start at vertex 1. */
  lemma ClipFaceAllInside(f: Face, c: Face)
    requires WellFormed(c) && |f.vertices| >= 3 && Distinct(f.vertices)
    requires forall v :: v in f.vertices ==> PointIsInside(c, v)
    ensures ClipFace(f, c) == Some(Face(RotateByOne(f.vertices)))
  {
    var n := |f.vertices|;
    CollectedAllInside(f, c, n - 1);
    var e := EndOfEdge(f, n - 1);
    assert e == f.vertices[0];
    assert PointIsInside(c, StartOfEdge(f, n - 1)) && PointIsInside(c, e);
    assert e !in f.vertices[1..n];
    assert Collected(f, c, n) == AddVertex(Face(f.vertices[1..n]), e);
    assert f.vertices[1..n] == f.vertices[1..];
    assert Collected(f, c, n) == Face(RotateByOne(f.vertices));
  }

  lemma {:induction false} CollectedAllOutside(f: Face, c: Face, k: nat)
    requires WellFormed(c) && k <= |f.vertices|
    requires forall v :: v in f.vertices ==> !PointIsInside(c, v)
    ensures Collected(f, c, k) == Face([])
  {
    if k > 0 {
      CollectedAllOutside(f, c, k - 1);
      assert !PointIsInside(c, StartOfEdge(f, k - 1)) && !PointIsInside(c, EndOfEdge(f, k - 1));
    }
  }

  /** A face wholly outside the clipping face yields no face. */
  lemma ClipFaceAllOutside(f: Face, c: Face)
    requires WellFormed(c)
    requires forall v :: v in f.vertices ==> !PointIsInside(c, v)
    ensures ClipFace(f, c).None?
  {
    CollectedAllOutside(f, c, |f.vertices|);
  }

  lemma {:induction false} CollectedStaysInside(f: Face, c: Face, h: Face, k: nat)
    requires WellFormed(c) && WellFormed(h) && k <= |f.vertices|
    requires forall v :: v in f.vertices ==> PointIsInside(h, v)
    ensures forall v :: v in Collected(f, c, k).vertices ==> PointIsInside(h, v)
  {
    if k > 0 {
      CollectedStaysInside(f, c, h, k - 1);
      var s, e := StartOfEdge(f, k - 1), EndOfEdge(f, k - 1);
      if PointIsInside(c, s) != PointIsInside(c, e) {
        IntersectionOnSegment(c, s, e);
        var t :| 0.0 <= t <= 1.0 && IntersectionPoint(c, s, e) == Lerp(s, e, t);
        BetweenInsideIsInside(h, s, e, t);
      }
    }
  }

  /** Clipping never leaves a half-space that held the whole input face:
      the clipped face lies in the convex hull of the input. */
  lemma ClipFaceStaysInside(f: Face, c: Face, h: Face)
    requires WellFormed(c) && WellFormed(h)
    requires forall v :: v in f.vertices ==> PointIsInside(h, v)
    ensures ClipFace(f, c).Some? ==>
              forall v :: v in ClipFace(f, c).value.vertices ==> PointIsInside(h, v)
  {
    CollectedStaysInside(f, c, h, |f.vertices|);
  }

  /** Clipping an already clipped face by the same face only rotates it. */
  lemma ReclipRotates(f: Face, c: Face)
    requires WellFormed(c) && ClipFace(f, c).Some?
    ensures ClipFace(ClipFace(f, c).value, c) == Some(Face(RotateByOne(ClipFace(f, c).value.vertices)))
  {
    ClipFaceAllInside(ClipFace(f, c).value, c);
  }
}

=== FILE: legacy_faces.dfy ===
/** The older Face (main/Face.java). Its plane queries, edge indexing,
    rewind and intersection are the same code as the current Face and are
    modelled by the members of Faces; what differs is the hash-based
    de-duplication and the if/else-if emit table of clipFace. */
module LegacyFaces {
  import opened Vectors
  import opened Options
  import opened Faces

  /** A face under construction: its vertices and the hashes recorded so far. */
  datatype HashedFace = HashedFace(vertices: seq<Vec3>, hashes: set<int>)

  function HashesOf(vs: seq<Vec3>, hash: Vec3 -> int): set<int> {
    set v | v in vs :: hash(v)
  }

  predicate InjectiveOn(hash: Vec3 -> int, vs: seq<Vec3>) {
    forall u, w :: u in vs && w in vs && hash(u) == hash(w) ==> u == w
  }

  /** `addVertex`: skip a vertex whose hash is already recorded; otherwise
      append it and record its hash. */
  function AddHashedVertex(f: HashedFace, v: Vec3, hash: Vec3 -> int): (r: HashedFace)
    ensures hash(v) in r.hashes
    ensures hash(v) in f.hashes ==> r == f
    ensures hash(v) !in f.hashes ==> r.vertices == f.vertices + [v]
    ensures f.hashes == HashesOf(f.vertices, hash) ==> r.hashes == HashesOf(r.vertices, hash)
  {
    if hash(v) in f.hashes then f
    else HashedFace(f.vertices + [v], f.hashes + {hash(v)})
  }

  /** While no two points involved share a hash, hash de-duplication is
      value de-duplication. */
  lemma HashDedupAgrees(f: HashedFace, v: Vec3, hash: Vec3 -> int)
    requires f.hashes == HashesOf(f.vertices, hash)
    requires InjectiveOn(hash, f.vertices + [v])
    ensures AddHashedVertex(f, v, hash).vertices == AddVertex(Face(f.vertices), v).vertices
  {
    if hash(v) in f.hashes {
      var u :| u in f.vertices && hash(u) == hash(v);
      assert u in f.vertices + [v] && v in f.vertices + [v];
    }
  }

  /** A hash collision silently drops a vertex that is not in the face. */
  lemma HashCollisionDropsVertex(f: HashedFace, v: Vec3, u: Vec3, hash: Vec3 -> int)
    requires f.hashes == HashesOf(f.vertices, hash)
    requires u in f.vertices && v !in f.vertices && hash(u) == hash(v)
    ensures v !in AddHashedVertex(f, v, hash).vertices
    ensures v in AddVertex(Face(f.vertices), v).vertices
  {
  }

  /** Hash-de-duplicating insertion of several vertices, left to right. */
  function AddHashedVertices(f: HashedFace, vs: seq<Vec3>, hash: Vec3 -> int): (r: HashedFace)
    ensures f.hashes == HashesOf(f.vertices, hash) ==> r.hashes == HashesOf(r.vertices, hash)
    ensures forall u :: u in r.vertices ==> u in f.vertices || u in vs
    decreases |vs|
  {
    if vs == [] then f else AddHashedVertices(AddHashedVertex(f, vs[0], hash), vs[1..], hash)
  }

  lemma {:induction false} AddHashedVerticesAgrees(f: HashedFace, vs: seq<Vec3>, hash: Vec3 -> int)
    requires f.hashes == HashesOf(f.vertices, hash)
    requires InjectiveOn(hash, f.vertices + vs)
    ensures AddHashedVertices(f, vs, hash).vertices == AddVertices(Face(f.vertices), vs).vertices
    decreases |vs|
  {
    if vs != [] {
      var v := vs[0];
      assert forall u :: u in f.vertices + [v] ==> u in f.vertices + vs;
      HashDedupAgrees(f, v, hash);
      var g := AddHashedVertex(f, v, hash);
      assert forall u :: u in g.vertices + vs[1..] ==> u in f.vertices + vs;
      AddHashedVerticesAgrees(g, vs[1..], hash);
    }
  }

  /** A fresh face filled with the given points by the hashed `addVertex`. */
  function HashedBuild(vs: seq<Vec3>, hash: Vec3 -> int): (r: Face)
    ensures forall u :: u in r.vertices ==> u in vs
  {
    Face(AddHashedVertices(HashedFace([], {}), vs, hash).vertices)
  }

  /** Without collisions among the points, the hashed build is the plain build. */
  lemma HashedBuildAgrees(vs: seq<Vec3>, hash: Vec3 -> int)
    requires InjectiveOn(hash, vs)
    ensures HashedBuild(vs, hash) == Build(vs)
  {
    assert [] + vs == vs;
    AddHashedVerticesAgrees(HashedFace([], {}), vs, hash);
  }

  // ---------------------------------------------------------------------
  // clipFace with the if/else-if emit table

  /** The loop body of the legacy `clipFace`: both inside emits the end,
      start only the intersection, end only the intersection then the end. */
  function ExtendFace(w: Face, c: Face, s: Vec3, e: Vec3): (r: Face)
    requires WellFormed(c)
    ensures r == Faces.ExtendFace(w, c, s, e)
  {
    var si := PointIsInside(c, s);
    var ei := PointIsInside(c, e);
    if si && ei then
      AddVertex(w, e)
    else if si then
      AddVertex(w, IntersectionPoint(c, s, e))
    else if ei then
      AddVertex(AddVertex(w, IntersectionPoint(c, s, e)), e)
    else
      w
  }

  /** The legacy working face after edges 0 .. k-1. */
  function Collected(f: Face, c: Face, k: nat): (w: Face)
    requires WellFormed(c) && k <= |f.vertices|
    ensures w == Faces.Collected(f, c, k)
    decreases k
  {
    if k == 0 then Face([])
    else ExtendFace(Collected(f, c, k - 1), c, StartOfEdge(f, k - 1), EndOfEdge(f, k - 1))
  }

  /** The legacy `clipFace`: the working face when it has more than two
      vertices, null otherwise. It computes the same face as the current one. */
  function ClipFace(f: Face, c: Face): (r: Option<Face>)
    requires WellFormed(c)
    ensures r == Faces.ClipFace(f, c)
  {
    var w := Collected(f, c, |f.vertices|);
    if |w.vertices| > 2 then Some(w) else None
  }

  /** The legacy clip's outcomes: null exactly when at most two vertices were
      collected; a face wholly inside comes back rotated by one; a face wholly
      outside gives null. */
  lemma ClipFaceOutcomes(f: Face, c: Face)
    requires WellFormed(c)
    ensures ClipFace(f, c).None? <==> |Collected(f, c, |f.vertices|).vertices| <= 2
    ensures (|f.vertices| >= 3 && Distinct(f.vertices)
             && forall v :: v in f.vertices ==> PointIsInside(c, v))
            ==> ClipFace(f, c) == Some(Face(RotateByOne(f.vertices)))
    ensures (forall v :: v in f.vertices ==> !PointIsInside(c, v)) ==> ClipFace(f, c).None?
  {
    if |f.vertices| >= 3 && Distinct(f.vertices) && forall v :: v in f.vertices ==> PointIsInside(c, v) {
      ClipFaceAllInside(f, c);
    }
    if forall v :: v in f.vertices ==> !PointIsInside(c, v) {
      ClipFaceAllOutside(f, c);
    }
  }
}

=== FILE: legacy_polyhedra.dfy ===
/** The older Polyhedron (main/Polyhedron.java). Its code is the same fold,
    body pass and cap pass as the current one, over the legacy clipFace. */
module LegacyPolyhedra {
  import opened Options
  import opened Faces
  import LegacyFaces
  import P = Polyhedra

  /** Body pass over the legacy clipFace. */
  function BodyPass(faces: seq<Face>, cut: Face): (r: seq<Face>)
    requires WellFormed(cut)
    ensures r == P.BodyPass(faces, cut)
    decreases |faces|
  {
    if faces == [] then []
    else BodyPass(faces[..|faces| - 1], cut) + LegacyFaces.ClipFace(faces[|faces| - 1], cut).ToSeq()
  }

  /** Cap pass over the legacy clipFace, stopping at the first null. */
  function CapPass(w: Option<Face>, faces: seq<Face>): (r: Option<Face>)
    requires forall f :: f in faces ==> WellFormed(f)
    ensures r == P.CapPass(w, faces)
    decreases |faces|
  {
    if w.None? then None
    else if faces == [] then w
    else CapPass(LegacyFaces.ClipFace(w.value, faces[0]), faces[1..])
  }

  /** The legacy `clip(Polyhedron, Face)`: at most one face more than the
      input, each with at least three vertices, the cap last. */
  function ClipBySingleFace(p: P.Polyhedron, cut: Face): (r: P.Polyhedron)
    requires P.Valid(p) && WellFormed(cut)
    ensures r == P.ClipBySingleFace(p, cut)
    ensures P.Valid(r) && P.NumberOfFaces(r) <= P.NumberOfFaces(p) + 1
  {
    var out := P.Polyhedron(BodyPass(p.faces, cut));
    var cap := CapPass(Some(cut), p.faces);
    if cap.Some? then P.AddFace(out, cap.value) else out
  }

  function ClipAll(w: P.Polyhedron, cuts: seq<Face>): (r: P.Polyhedron)
    requires P.Valid(w) && forall f :: f in cuts ==> WellFormed(f)
    ensures r == P.ClipAll(w, cuts)
    decreases |cuts|
  {
    if cuts == [] then w else ClipAll(ClipBySingleFace(w, cuts[0]), cuts[1..])
  }

  /** The legacy `clip(Polyhedron)`: the same intersection as the current
      one, and the input itself when the clipping solid has no faces. */
  function Clip(p: P.Polyhedron, other: P.Polyhedron): (r: P.Polyhedron)
    requires P.Valid(p) && P.Valid(other)
    ensures r == P.Clip(p, other)
    ensures P.NumberOfFaces(other) == 0 ==> r == p
  {
    ClipAll(p, other.faces)
  }
}

=== FILE: options.dfy ===
/** The explicit "no face" result that replaces the source's null returns. */
module Options {

  datatype Option<+T> = None | Some(value: T) {

    /** The value as a sequence of zero or one elements: appending it is the
        source's `if (x != null) list.add(x)`. */
    function ToSeq(): (s: seq<T>)
      ensures |s| <= 1
      ensures Some? <==> |s| == 1
      ensures Some? ==> s[0] == value
    {
      match this
      case None => []
      case Some(v) => [v]
    }
  }
}

=== FILE: polyhedra.dfy ===
/** The current Polyhedron of the kernel (representation/Polyhedron.java):
    a face list, and convex intersection as a fold of single-face clips. */
module Polyhedra {
  import opened Vectors
  import opened Options
  import opened Faces

  datatype Polyhedron = Polyhedron(faces: seq<Face>)

  /** Every face supports plane queries. */
  predicate Valid(p: Polyhedron) {
    forall f :: f in p.faces ==> WellFormed(f)
  }

  /** Every vertex of every face of p lies in the half-space of h. */
  predicate Contained(p: Polyhedron, h: Face)
    requires WellFormed(h)
  {
    forall f, v :: f in p.faces && v in f.vertices ==> PointIsInside(h, v)
  }

  /** Each face is wound so that the whole solid lies behind it. */
  predicate ConvexlyWound(p: Polyhedron)
    requires Valid(p)
  {
    forall h :: h in p.faces ==> Contained(p, h)
  }

  /** Convex winding face by face: every vertex of face j lies inside face i. */
  lemma ConvexlyWoundByIndex(p: Polyhedron)
    requires Valid(p)
    ensures ConvexlyWound(p) <==>
              forall i, j, v :: 0 <= i < |p.faces| && 0 <= j < |p.faces| && v in p.faces[j].vertices
                ==> PointIsInside(p.faces[i], v)
  {
    var fs := p.faces;
    if forall i, j, v :: 0 <= i < |fs| && 0 <= j < |fs| && v in fs[j].vertices ==> PointIsInside(fs[i], v) {
      forall h, f, v | h in fs && f in fs && v in f.vertices
        ensures PointIsInside(h, v)
      {
        var i :| 0 <= i < |fs| && fs[i] == h;
        var j :| 0 <= j < |fs| && fs[j] == f;
      }
    }
    if ConvexlyWound(p) {
      forall i, j, v | 0 <= i < |fs| && 0 <= j < |fs| && v in fs[j].vertices
        ensures PointIsInside(fs[i], v)
      {
        assert Contained(p, fs[i]);
      }
    }
  }

  // ---------------------------------------------------------------------
  // Face list

  function NumberOfFaces(p: Polyhedron): nat {
    |p.faces|
  }

  function GetFace(p: Polyhedron, i: nat): Face
    requires i < |p.faces|
  {
    p.faces[i]
  }

  /** `addFace`: exactly one face more, at the end, and nothing else changes. */
  function AddFace(p: Polyhedron, f: Face): (r: Polyhedron)
    ensures NumberOfFaces(r) == NumberOfFaces(p) + 1
    ensures GetFace(r, NumberOfFaces(p)) == f
    ensures forall i :: 0 <= i < NumberOfFaces(p) ==> GetFace(r, i) == GetFace(p, i)
  {
    Polyhedron(p.faces + [f])
  }

  // ---------------------------------------------------------------------
  // Clipping by one face

  /** Body pass of `clip(Polyhedron, Face)`: every face clipped by the cutting
      face, the null results dropped. */
  function BodyPass(faces: seq<Face>, cut: Face): (r: seq<Face>)
    requires WellFormed(cut)
    ensures |r| <= |faces|
    ensures forall g :: g in r ==> WellFormed(g)
    ensures forall g, v :: g in r && v in g.vertices ==> PointIsInside(cut, v)
    decreases |faces|
  {
    if faces == [] then []
    else BodyPass(faces[..|faces| - 1], cut) + ClipFace(faces[|faces| - 1], cut).ToSeq()
  }

  /** Cap pass of `clip(Polyhedron, Face)`: the cutting face threaded through
      `clipFace` against each face in order, stopping at the first null. */
  function CapPass(w: Option<Face>, faces: seq<Face>): (r: Option<Face>)
    requires forall f :: f in faces ==> WellFormed(f)
    ensures r.Some? ==> w.Some?
    ensures faces == [] ==> r == w
    ensures r.Some? && faces != [] ==> WellFormed(r.value)
    decreases |faces|
  {
    if w.None? then None
    else if faces == [] then w
    else CapPass(ClipFace(w.value, faces[0]), faces[1..])
  }

  /** `clip(Polyhedron, Face)`: the body faces, then the cap if it survived. */
  function ClipBySingleFace(p: Polyhedron, cut: Face): (r: Polyhedron)
    requires Valid(p) && WellFormed(cut)
    ensures Valid(r)
    ensures NumberOfFaces(r) <= NumberOfFaces(p) + 1
  {
    var out := Polyhedron(BodyPass(p.faces, cut));
    var cap := CapPass(Some(cut), p.faces);
    if cap.Some? then AddFace(out, cap.value) else out
  }

  // ---------------------------------------------------------------------
  // Clipping by a polyhedron

  /** The loop of `clip(Polyhedron)`: clip the working polyhedron by each
      cutting face in index order. */
  function ClipAll(w: Polyhedron, cuts: seq<Face>): (r: Polyhedron)
    requires Valid(w) && forall f :: f in cuts ==> WellFormed(f)
    ensures Valid(r)
    ensures NumberOfFaces(r) <= NumberOfFaces(w) + |cuts|
    decreases |cuts|
  {
    if cuts == [] then w else ClipAll(ClipBySingleFace(w, cuts[0]), cuts[1..])
  }

  /** `clip(Polyhedron)`: the intersection of p with other; p itself when
      other has no faces. */
  function Clip(p: Polyhedron, other: Polyhedron): (r: Polyhedron)
    requires Valid(p) && Valid(other)
    ensures Valid(r)
    ensures NumberOfFaces(r) <= NumberOfFaces(p) + NumberOfFaces(other)
    ensures NumberOfFaces(other) == 0 ==> r == p
  {
    ClipAll(p, other.faces)
  }

  // ---------------------------------------------------------------------
  // Body pass: the survivors, in input order

  /** The body pass distributes over concatenation, so its result is the
      surviving clips in input order. */
  lemma {:induction false} BodyPassAppend(a: seq<Face>, b: seq<Face>, cut: Face)
    requires WellFormed(cut)
    ensures BodyPass(a + b, cut) == BodyPass(a, cut) + BodyPass(b, cut)
    decreases |b|
  {
    if b == [] {
      assert a + b == a;
    } else {
      var b' := b[..|b| - 1];
      var last := ClipFace(b[|b| - 1], cut).ToSeq();
      assert (a + b)[..|a + b| - 1] == a + b';
      assert (a + b)[|a + b| - 1] == b[|b| - 1];
      BodyPassAppend(a, b', cut);
      assert BodyPass(a + b, cut) == BodyPass(a, cut) + BodyPass(b', cut) + last;
    }
  }

  /** One face contributes its clip when there is one, and nothing otherwise. */
  lemma BodyPassSingle(f: Face, cut: Face)
    requires WellFormed(cut)
    ensures ClipFace(f, cut).Some? ==> BodyPass([f], cut) == [ClipFace(f, cut).value]
    ensures ClipFace(f, cut).None? ==> BodyPass([f], cut) == []
  {
    assert [f][..0] == [];
  }

  /** When every face survives, the body faces are their clips, index by index. */
  lemma {:induction false} BodyPassAllSurvive(faces: seq<Face>, cut: Face)
    requires WellFormed(cut)
    requires forall i :: 0 <= i < |faces| ==> ClipFace(faces[i], cut).Some?
    ensures |BodyPass(faces, cut)| == |faces|
    ensures forall i :: 0 <= i < |faces| ==> BodyPass(faces, cut)[i] == ClipFace(faces[i], cut).value
    decreases |faces|
  {
    if faces != [] {
      var n := |faces|;
      var init := faces[..n - 1];
      forall i | 0 <= i < |init|
        ensures ClipFace(init[i], cut).Some?
      {
        assert init[i] == faces[i];
      }
      BodyPassAllSurvive(init, cut);
      var last := ClipFace(faces[n - 1], cut);
      var r := BodyPass(faces, cut);
      var body := BodyPass(init, cut);
      assert r == body + [last.value];
      forall i | 0 <= i < n
        ensures r[i] == ClipFace(faces[i], cut).value
      {
        if i < n - 1 {
          assert r[i] == body[i] && init[i] == faces[i];
        } else {
          assert r[i] == last.value;
        }
      }
    }
  }

  // ---------------------------------------------------------------------
  // Cap pass: threading, early stop, containment

  /** Threading the cap through a + b is threading it through a, then b. */
  lemma {:induction false} CapPassAppend(w: Option<Face>, a: seq<Face>, b: seq<Face>)
    requires forall f :: f in a + b ==> WellFormed(f)
    ensures CapPass(w, a + b) == CapPass(CapPass(w, a), b)
    decreases |a|
  {
    if w.Some? && a != [] {
      assert (a + b)[0] == a[0] && (a + b)[1..] == a[1..] + b;
      CapPassAppend(ClipFace(w.value, a[0]), a[1..], b);
    } else if a == [] {
      assert a + b == b;
    } else {
      assert CapPass(w, a + b) == None;
    }
  }

  /** Once the cap is null it stays null: the pass stops at the first null. */
  lemma CapPassStopsAtNull(w: Option<Face>, a: seq<Face>, b: seq<Face>)
    requires forall f :: f in a + b ==> WellFormed(f)
    requires CapPass(w, a).None?
    ensures CapPass(w, a + b).None?
  {
    CapPassAppend(w, a, b);
  }

  /** A half-space that held the cutting face also holds the cap. */
  lemma {:induction false} CapPassStaysInside(w: Option<Face>, faces: seq<Face>, h: Face)
    requires WellFormed(h) && forall f :: f in faces ==> WellFormed(f)
    requires w.Some? ==> forall v :: v in w.value.vertices ==> PointIsInside(h, v)
    ensures CapPass(w, faces).Some? ==>
              forall v :: v in CapPass(w, faces).value.vertices ==> PointIsInside(h, v)
    decreases |faces|
  {
    if w.Some? && faces != [] {
      ClipFaceStaysInside(w.value, faces[0], h);
      CapPassStaysInside(ClipFace(w.value, faces[0]), faces[1..], h);
    }
  }

  /** The cap lies inside every face it was clipped against. */
  lemma {:induction false} CapPassInsideAll(w: Option<Face>, faces: seq<Face>)
    requires forall f :: f in faces ==> WellFormed(f)
    ensures CapPass(w, faces).Some? ==>
              forall f, v :: f in faces && v in CapPass(w, faces).value.vertices ==> PointIsInside(f, v)
    decreases |faces|
  {
    if w.Some? && faces != [] {
      var next := ClipFace(w.value, faces[0]);
      CapPassInsideAll(next, faces[1..]);
      CapPassStaysInside(next, faces[1..], faces[0]);
      assert forall f :: f in faces ==> f == faces[0] || f in faces[1..];
    }
  }

  /** The output of a single-face clip is the body pass followed by the cap,
      when the cap survived; with no input faces it is the cutting face alone. */
  lemma ClipBySingleFaceShape(p: Polyhedron, cut: Face)
    requires Valid(p) && WellFormed(cut)
    ensures var r := ClipBySingleFace(p, cut);
            var body := BodyPass(p.faces, cut);
            var cap := CapPass(Some(cut), p.faces);
            && |body| <= |r.faces|
            && r.faces[..|body|] == body
            && (cap.Some? <==> |r.faces| == |body| + 1)
            && (cap.Some? ==> r.faces[|body|] == cap.value)
    ensures p.faces == [] ==> ClipBySingleFace(p, cut) == Polyhedron([cut])
  {
  }

  // ---------------------------------------------------------------------
  // The fold

  /** Clipping by a + b is clipping by a, then by b. */
  lemma {:induction false} ClipAllAppend(w: Polyhedron, a: seq<Face>, b: seq<Face>)
    requires Valid(w) && forall f :: f in a + b ==> WellFormed(f)
    ensures ClipAll(w, a + b) == ClipAll(ClipAll(w, a), b)
    decreases |a|
  {
    if a == [] {
      assert a + b == b;
    } else {
      assert (a + b)[0] == a[0] && (a + b)[1..] == a[1..] + b;
      ClipAllAppend(ClipBySingleFace(w, a[0]), a[1..], b);
    }
  }

  /** `clip` is a left fold: adding a last face to the clipping solid adds
      one last single-face clip. */
  lemma ClipIsLeftFold(p: Polyhedron, other: Polyhedron, g: Face)
    requires Valid(p) && Valid(other) && WellFormed(g)
    ensures Clip(p, Polyhedron(other.faces + [g])) == ClipBySingleFace(Clip(p, other), g)
  {
    ClipAllAppend(p, other.faces, [g]);
  }

  // ---------------------------------------------------------------------
  // Soundness: the result lies inside the clipping solid

  /** A single-face clip keeps every half-space that held both the working
      polyhedron and the cutting face. */
  lemma ClipBySingleFaceKeepsInside(w: Polyhedron, cut: Face, h: Face)
    requires Valid(w) && WellFormed(cut) && WellFormed(h)
    requires Contained(w, h)
    requires forall v :: v in cut.vertices ==> PointIsInside(h, v)
    ensures Contained(ClipBySingleFace(w, cut), h)
  {
    BodyPassStaysInside(w.faces, cut, h);
    CapPassStaysInside(Some(cut), w.faces, h);
  }

  /** A single-face clip by a face that holds its own vertices lies inside it. */
  lemma ClipBySingleFaceInsideCut(w: Polyhedron, cut: Face)
    requires Valid(w) && WellFormed(cut)
    requires forall v :: v in cut.vertices ==> PointIsInside(cut, v)
    ensures Contained(ClipBySingleFace(w, cut), cut)
  {
    CapPassStaysInside(Some(cut), w.faces, cut);
  }

  lemma {:induction false} BodyPassStaysInside(faces: seq<Face>, cut: Face, h: Face)
    requires WellFormed(cut) && WellFormed(h)
    requires forall f, v :: f in faces && v in f.vertices ==> PointIsInside(h, v)
    ensures forall g, v :: g in BodyPass(faces, cut) && v in g.vertices ==> PointIsInside(h, v)
    decreases |faces|
  {
    if faces != [] {
      var last := faces[|faces| - 1];
      BodyPassStaysInside(faces[..|faces| - 1], cut, h);
      ClipFaceStaysInside(last, cut, h);
    }
  }

  lemma {:induction false} ClipAllContained(w: Polyhedron, cuts: seq<Face>, done: seq<Face>)
    requires Valid(w) && forall f :: f in cuts + done ==> WellFormed(f)
    requires forall h :: h in done ==> Contained(w, h)
    requires forall g, h, v :: g in cuts && h in cuts + done && v in g.vertices ==> PointIsInside(h, v)
    ensures forall h :: h in cuts + done ==> Contained(ClipAll(w, cuts), h)
    decreases |cuts|
  {
    if cuts == [] {
      assert cuts + done == done;
    } else {
      var g := cuts[0];
      var w' := ClipBySingleFace(w, g);
      forall h | h in done
        ensures Contained(w', h)
      {
        ClipBySingleFaceKeepsInside(w, g, h);
      }
      ClipBySingleFaceInsideCut(w, g);
      var done' := [g] + done;
      assert forall f :: f in cuts[1..] + done' <==> f in cuts + done;
      ClipAllContained(w', cuts[1..], done');
    }
  }

  /** Every vertex of the intersection lies inside every face of the clipping
      solid, provided that solid is wound with its interior behind each face. */
  lemma ClipInsideOther(p: Polyhedron, other: Polyhedron)
    requires Valid(p) && Valid(other) && ConvexlyWound(other)
    ensures forall h :: h in other.faces ==> Contained(Clip(p, other), h)
  {
    assert other.faces + [] == other.faces;
    ClipAllContained(p, other.faces, []);
  }

  // ---------------------------------------------------------------------
  // Cutting a solid by one of its own faces

  /** A cap that lies inside every face it meets survives every step, and
      each step only rotates it, so it keeps its vertices. */
  lemma {:induction false} CapPassAllInside(w: Face, faces: seq<Face>)
    requires forall f :: f in faces ==> WellFormed(f)
    requires WellFormed(w) && Distinct(w.vertices)
    requires forall f, v :: f in faces && v in w.vertices ==> PointIsInside(f, v)
    ensures CapPass(Some(w), faces).Some?
    ensures forall u :: u in CapPass(Some(w), faces).value.vertices <==> u in w.vertices
    ensures CapPass(Some(w), faces) == Some(Face(RotateBy(w.vertices, |faces|)))
    decreases |faces|
  {
    if faces != [] {
      ClipFaceAllInside(w, faces[0]);
      var next := ClipFace(w, faces[0]).value;
      assert next == Face(RotateByOne(w.vertices));
      assert forall u :: u in next.vertices <==> u in w.vertices;
      CapPassAllInside(next, faces[1..]);
      assert CapPass(Some(w), faces) == CapPass(Some(next), faces[1..]);
    }
  }

  /** Every face of a convexly wound solid survives a cut by one of its own
      faces, rotated by one. */
  lemma SelfCutBody(p: Polyhedron, h: Face)
    requires Valid(p) && ConvexlyWound(p) && h in p.faces
    requires forall f :: f in p.faces ==> Distinct(f.vertices)
    ensures |BodyPass(p.faces, h)| == |p.faces|
    ensures forall i :: 0 <= i < |p.faces| ==>
              WellFormed(p.faces[i]) && BodyPass(p.faces, h)[i] == Face(RotateByOne(p.faces[i].vertices))
  {
    var fs := p.faces;
    assert Contained(p, h);
    forall i | 0 <= i < |fs|
      ensures ClipFace(fs[i], h) == Some(Face(RotateByOne(fs[i].vertices)))
    {
      ClipFaceAllInside(fs[i], h);
    }
    BodyPassAllSurvive(fs, h);
  }

  /** The cap of a cut by one of the solid's own faces survives with that
      face's vertices, rotated by one for every face of the solid. */
  lemma SelfCutCap(p: Polyhedron, h: Face)
    requires Valid(p) && ConvexlyWound(p) && h in p.faces
    requires Distinct(h.vertices)
    ensures CapPass(Some(h), p.faces).Some?
    ensures forall u :: u in CapPass(Some(h), p.faces).value.vertices <==> u in h.vertices
    ensures CapPass(Some(h), p.faces) == Some(Face(RotateBy(h.vertices, |p.faces|)))
  {
    var fs := p.faces;
    forall f, v | f in fs && v in h.vertices
      ensures PointIsInside(f, v)
    {
      assert Contained(p, f);
    }
    CapPassAllInside(h, fs);
  }

  /** Cutting a convexly wound solid by one of its own faces keeps every face,
      rotated by one, and then appends a cap holding the cutting face's
      vertices, rotated once per face: the result has one face more than the
      input. */
  lemma SelfCutAddsFace(p: Polyhedron, h: Face)
    requires Valid(p) && ConvexlyWound(p) && h in p.faces
    requires forall f :: f in p.faces ==> Distinct(f.vertices)
    ensures NumberOfFaces(ClipBySingleFace(p, h)) == NumberOfFaces(p) + 1
    ensures forall i :: 0 <= i < NumberOfFaces(p) ==>
              WellFormed(p.faces[i]) && GetFace(ClipBySingleFace(p, h), i) == Face(RotateByOne(p.faces[i].vertices))
    ensures forall u :: u in GetFace(ClipBySingleFace(p, h), NumberOfFaces(p)).vertices <==> u in h.vertices
    ensures GetFace(ClipBySingleFace(p, h), NumberOfFaces(p)) == Face(RotateBy(h.vertices, NumberOfFaces(p)))
  {
    SelfCutBody(p, h);
    SelfCutCap(p, h);
    var body := BodyPass(p.faces, h);
    var cap := CapPass(Some(h), p.faces);
    var r := ClipBySingleFace(p, h);
    assert r.faces == body + [cap.value];
    forall i | 0 <= i < NumberOfFaces(p)
      ensures WellFormed(p.faces[i]) && GetFace(r, i) == Face(RotateByOne(p.faces[i].vertices))
    {
      assert GetFace(r, i) == body[i];
    }
    assert GetFace(r, NumberOfFaces(p)) == cap.value;
  }
}

=== FILE: tetrahedron.dfy ===
/** The tetrahedron creator (creators/Tetrahedron.java) as a pure function:
    four triangles over four points, each rewound against their average. */
module Tetrahedron {
  import opened Vectors
  import opened Faces
  import opened Polyhedra

  /** `initVertices`: the average of the four points, computed on a copy so
      that no input is changed. */
  function Center(v1: Vec3, v2: Vec3, v3: Vec3, v4: Vec3): (c: Vec3)
    ensures Scale(c, 4.0) == Add(Add(Add(v1, v2), v3), v4)
  {
    Scale(Add(Add(Add(v1, v2), v3), v4), 0.25)
  }

  /** `createTriangle`: three vertices added in order, then rewound so that
      the center is inside. */
  function CreateTriangle(a: Vec3, b: Vec3, c: Vec3, center: Vec3): (r: Face)
    requires a != b && b != c && a != c
    ensures WellFormed(r)
    ensures r.vertices == [a, b, c] || r.vertices == [c, b, a]
    ensures PointIsInside(r, center)
  {
    var f := Build([a, b, c]);
    assert Reverse(f.vertices) == [c, b, a];
    TriangleReversalNegates(f, center);
    RewindPutsInside(f, center);
    Rewind(f, center)
  }

  /** The triangles before rewinding: bottom, left, right, front. */
  function Triangles(v1: Vec3, v2: Vec3, v3: Vec3, v4: Vec3): seq<seq<Vec3>> {
    [[v1, v2, v3], [v1, v3, v4], [v1, v4, v2], [v4, v3, v2]]
  }

  /** The point of the four that triangle i leaves out. */
  function Apex(v1: Vec3, v2: Vec3, v3: Vec3, v4: Vec3, i: nat): Vec3 {
    if i == 0 then v4 else if i == 1 then v2 else if i == 2 then v3 else v1
  }

  /** Distinct points are exactly what the triangles need: when two of the
      four points coincide, some triangle is left with at most two vertices,
      and rewinding it would index past the end of its vertex list. */
  lemma CoincidentPointsCollapse(v1: Vec3, v2: Vec3, v3: Vec3, v4: Vec3)
    requires !Distinct([v1, v2, v3, v4])
    ensures exists i :: 0 <= i < 4 && |Build(Triangles(v1, v2, v3, v4)[i]).vertices| <= 2
  {
    var s := [v1, v2, v3, v4];
    var t := Triangles(v1, v2, v3, v4);
    var a, b :| 0 <= a < b < 4 && s[a] == s[b];
    if v1 == v2 {
      BuildFromTwoPoints(t[0], v1, v3);
      assert |Build(t[0]).vertices| <= 2;
    } else if v1 == v3 || v2 == v3 {
      BuildFromTwoPoints(t[0], v1, v2);
      assert |Build(t[0]).vertices| <= 2;
    } else {
      assert v1 == v4 || v2 == v4 || v3 == v4;
      if v2 == v4 {
        BuildFromTwoPoints(t[2], v1, v2);
        assert |Build(t[2]).vertices| <= 2;
      } else {
        BuildFromTwoPoints(t[1], v1, v3);
        assert |Build(t[1]).vertices| <= 2;
      }
    }
  }

  /** Face i: triangle i created against the center. */
  function TetraFace(v1: Vec3, v2: Vec3, v3: Vec3, v4: Vec3, i: nat): (f: Face)
    requires Distinct([v1, v2, v3, v4]) && i < 4
    ensures WellFormed(f)
    ensures var t := Triangles(v1, v2, v3, v4)[i];
            f.vertices == t || f.vertices == [t[2], t[1], t[0]]
    ensures PointIsInside(f, Center(v1, v2, v3, v4))
    ensures forall v :: v in f.vertices ==> v == v1 || v == v2 || v == v3 || v == v4
  {
    var t := Triangles(v1, v2, v3, v4)[i];
    assert v1 != v2 && v1 != v3 && v1 != v4 && v2 != v3 && v2 != v4 && v3 != v4 by {
      var s := [v1, v2, v3, v4];
      assert s[0] != s[1] && s[0] != s[2] && s[0] != s[3] && s[1] != s[2] && s[1] != s[3] && s[2] != s[3];
    }
    CreateTriangle(t[0], t[1], t[2], Center(v1, v2, v3, v4))
  }

  /** `create`: the faces bottom, left, right, front, in that order. Four
      distinct points are what keeps every triangle at three vertices. */
  function Create(v1: Vec3, v2: Vec3, v3: Vec3, v4: Vec3): (r: Polyhedron)
    requires Distinct([v1, v2, v3, v4])
    ensures Valid(r) && NumberOfFaces(r) == 4
  {
    Polyhedron(seq(4, i requires 0 <= i < 4 => TetraFace(v1, v2, v3, v4, i)))
  }

  /** Face i holds exactly the three points of triangle i, kept in order or
      reversed, and the center is inside it. */
  lemma CreateShape(v1: Vec3, v2: Vec3, v3: Vec3, v4: Vec3, i: nat)
    requires Distinct([v1, v2, v3, v4]) && i < 4
    ensures var f := Create(v1, v2, v3, v4).faces[i];
            var t := Triangles(v1, v2, v3, v4)[i];
            && (f.vertices == t || f.vertices == [t[2], t[1], t[0]])
            && PointIsInside(f, Center(v1, v2, v3, v4))
  {
    assert Create(v1, v2, v3, v4).faces[i] == TetraFace(v1, v2, v3, v4, i);
  }

  /** The determinant is affine, so its value at the center is the average of
      its values at the four points. */
  lemma DetAtCenter(f: Face, v1: Vec3, v2: Vec3, v3: Vec3, v4: Vec3)
    requires WellFormed(f)
    ensures 4.0 * Det(f, Center(v1, v2, v3, v4)) == Det(f, v1) + Det(f, v2) + Det(f, v3) + Det(f, v4)
  {
    var n := Normal(f);
    var a := f.vertices[0];
    var c := Center(v1, v2, v3, v4);
    assert 4.0 * Dot(n, Sub(c, a))
        == Dot(n, Sub(v1, a)) + Dot(n, Sub(v2, a)) + Dot(n, Sub(v3, a)) + Dot(n, Sub(v4, a));
  }

  /** Face i holds all four points: its own three lie on its plane, and the
      apex sits at four times the center's (non-positive) determinant. */
  lemma TetraFaceHoldsPoints(v1: Vec3, v2: Vec3, v3: Vec3, v4: Vec3, i: nat, v: Vec3)
    requires Distinct([v1, v2, v3, v4]) && i < 4
    requires v == v1 || v == v2 || v == v3 || v == v4
    ensures PointIsInside(TetraFace(v1, v2, v3, v4, i), v)
  {
    var f := TetraFace(v1, v2, v3, v4, i);
    var t := Triangles(v1, v2, v3, v4)[i];
    DefiningVerticesOnPlane(f);
    assert Det(f, t[0]) == 0.0 && Det(f, t[1]) == 0.0 && Det(f, t[2]) == 0.0;
    DetAtCenter(f, v1, v2, v3, v4);
    var d := Apex(v1, v2, v3, v4, i);
    assert Det(f, v1) + Det(f, v2) + Det(f, v3) + Det(f, v4) == Det(f, d);
    assert v == d || v == t[0] || v == t[1] || v == t[2];
  }

  /** Every vertex of face j lies inside face i. */
  lemma TetraFaceHoldsFace(v1: Vec3, v2: Vec3, v3: Vec3, v4: Vec3, i: nat, j: nat, v: Vec3)
    requires Distinct([v1, v2, v3, v4]) && i < 4 && j < 4
    requires v in TetraFace(v1, v2, v3, v4, j).vertices
    ensures PointIsInside(TetraFace(v1, v2, v3, v4, i), v)
  {
    TetraFaceHoldsPoints(v1, v2, v3, v4, i, v);
  }

  /** The tetrahedron is wound with its interior behind every face. */
  lemma CreateConvexlyWound(v1: Vec3, v2: Vec3, v3: Vec3, v4: Vec3)
    requires Distinct([v1, v2, v3, v4])
    ensures ConvexlyWound(Create(v1, v2, v3, v4))
  {
    var r := Create(v1, v2, v3, v4);
    var fs := r.faces;
    forall i, j, v | 0 <= i < |fs| && 0 <= j < |fs| && v in fs[j].vertices
      ensures PointIsInside(fs[i], v)
    {
      TetraFaceHoldsFace(v1, v2, v3, v4, i, j, v);
    }
    ConvexlyWoundByIndex(r);
  }
}

=== FILE: vectors.dfy ===
/** Exact 3D vector arithmetic: the part of libGDX's Vector3 that the
    clipping kernel uses (copy, add, subtract, uniform scale), over reals. */
module Vectors {

  datatype Vec3 = Vec3(x: real, y: real, z: real)

  datatype Axis = X | Y | Z

  function Coord(v: Vec3, a: Axis): real {
    match a
    case X => v.x
    case Y => v.y
    case Z => v.z
  }

  function Add(a: Vec3, b: Vec3): Vec3 {
    Vec3(a.x + b.x, a.y + b.y, a.z + b.z)
  }

  function Sub(a: Vec3, b: Vec3): Vec3 {
    Vec3(a.x - b.x, a.y - b.y, a.z - b.z)
  }

  function Scale(a: Vec3, k: real): Vec3 {
    Vec3(k * a.x, k * a.y, k * a.z)
  }

  function Dot(a: Vec3, b: Vec3): real {
    a.x * b.x + a.y * b.y + a.z * b.z
  }

  function Cross(a: Vec3, b: Vec3): Vec3 {
    Vec3(a.y * b.z - a.z * b.y, a.z * b.x - a.x * b.z, a.x * b.y - a.y * b.x)
  }

  /** The midpoint of a and b. */
  function Midpoint(a: Vec3, b: Vec3): Vec3 {
    Scale(Add(a, b), 1.0 / 2.0)
  }

  /** The point at parameter t on the line p1 -> p2. */
  function Lerp(p1: Vec3, p2: Vec3, t: real): Vec3 {
    Add(Scale(Sub(p2, p1), t), p1)
  }

  /** A linear functional evaluated along a line is affine in the parameter. */
  lemma DotLerp(n: Vec3, a: Vec3, p1: Vec3, p2: Vec3, t: real)
    ensures Dot(n, Sub(Lerp(p1, p2, t), a))
            == Dot(n, Sub(p1, a)) + t * (Dot(n, Sub(p2, a)) - Dot(n, Sub(p1, a)))
  {
    var q := Lerp(p1, p2, t);
    assert q.x - a.x == (p1.x - a.x) + t * (p2.x - p1.x);
    assert n.x * (q.x - a.x) == n.x * (p1.x - a.x) + t * (n.x * (p2.x - p1.x));
    assert n.y * (q.y - a.y) == n.y * (p1.y - a.y) + t * (n.y * (p2.y - p1.y));
    assert n.z * (q.z - a.z) == n.z * (p1.z - a.z) + t * (n.z * (p2.z - p1.z));
  }
}
